=== FILE: README.md ===
# Injector: a verified model

This project models the injector of `inject.rb`, a small Ruby dependency-injection engine. Callers register **rules** under a **key**: a literal value, or a producer block whose parameters are themselves resolved by name. `get(key)` resolves a key lazily with fallback. It scans the key's stored rules from last to first, takes the first non-nil result, fires the key's `after_fetch` callbacks for the winning rule, and memoizes the result with `||=`. `inject(overrides, &block)` binds each parameter of a block. It uses the override at the parameter's index, else the override at its name, else a recursive `get`, and then calls the block.

The model is functional. The injector's three tables (`@rules`, `@injected`, `@callbacks`) form an immutable `State`. The store operations are pure functions on that `State`. `get`, the rule scan, `fire` and `inject` are one mutually recursive group of functions. Each call returns the result or the error raised, the state reached, and a trace of the callback invocations it caused.

Modules, one concept each:

- `Values` (`values.dfy`): Ruby values with explicit `Nil`/`False` for truthiness, `:all` and `:setter`, errors, `Option`/`Result`.
- `Callables` (`callables.dfy`): parameter kinds as reported by `parameters`, producers and callbacks, and how bound values become positional arguments plus the trailing keyword hash.
- `Rules` (`rule.dfy`): `Inject::Rule` and its boolean `<=>` predicate.
- `InjectorState` (`state.dfy`): the state record, `initialize`, `insert`, `insert_rule`, `insert_rules`, `set`, `invalidate`, `add_callback`, `when_fetched`.
- `Resolution` (`resolution.dfy`): `get`, the reverse scan, `fire`, `inject` and parameter binding.
- `BindingProperties` (`binding.dfy`): `inject` over whole parameter lists: which parameters are bound without running a rule, which go through `get`, and what a missing rule does at any position.
- `ResolutionProperties` (`properties.dfy`): lemmas relating several calls, or a call to an independent reference.

Modelling choices:

- Identifiers and the `before:`/`after:` hints are plain `Value`s. `:all` is `Sym("all")`, so the comparator's equality tests are the Ruby ones. A missing hint reads as `Nil`.
- A rule value is tagged `Literal` or `Producer`. This tag stands for `is_a?(Proc) or is_a?(Method)`.
- A producer or callback is a `Callable`. It has an explicit parameter list `(kind, name)`, which stands for `block.parameters`. It also has a total function from its arguments to a `Result`, so user code may raise.
- Where `pqueue` places a pushed rule is a parameter of the model, `place: Placement`. It only has to return an index within the queue. `get` scans whatever order is stored, in reverse.
- Errors carry the state reached. A Ruby exception does not undo memo entries that nested `get`s already wrote.
- Re-entrant resolution is bounded by `fuel`. Running out gives `OutOfFuel`.
- Every callback invocation is recorded as a `Notice`, together with the nesting depth of the `get` that fired it. `Level(trace, d)` picks out the invocations fired directly by the `get` at depth `d`.

Behaviour worth noting, as the code has it:

- An optional parameter whose name cannot be resolved is not left to its default. `inject` rescues `RuleNotFound` only for `:key` parameters (lib/injector.rb:62-65) and binds those to `nil`, and that `nil` is still passed in the keyword hash (lib/injector.rb:71-72). An `:opt` parameter is resolved like a required one, so a missing rule raises (lib/injector.rb:66-68).
- `invalidate` returns `true` whenever the key has a queue, even an empty one, and `nil` when it has none (lib/injector.rb:110-122). The queue itself is kept, so a later `get` of the key returns `nil` instead of raising.
- A callback registered without a key is filed under its first parameter's name (lib/injector.rb:126). A callback with no parameters makes that expression fail on `nil`; the model returns `NoParameterName` in that case.
- `get` memoizes with `||=` (lib/injector.rb:18), so a `nil` or `false` result is stored but never served: the next `get` scans the rules again; a `false` result fires the callbacks again, while a `nil` result fires nothing (lib/injector.rb:34).

## Model

| member | source | states |
|---|---|---|
| Rules.NewRule | lib/inject/rule.rb:4-9 | `Rule.new` stores key, identifier, value and options unchanged |
| Rules.Precedes | lib/inject/rule.rb:11-16 | `a <=> b` is true when a's `:before` or b's `:after` is `:all`, or names the other rule's identifier, and it is true only in those cases |
| Rules.BeforeAllPrecedesEverything | lib/inject/rule.rb:13 | a rule with `before: :all` compares true against every rule |
| Rules.AfterAllFollowsEverything | lib/inject/rule.rb:15 | every rule compares true against a rule with `after: :all` |
| Rules.SetterRulesPrecedeEachOther | lib/inject/rule.rb:13 | two `set` rules compare true in both directions, so the predicate is not antisymmetric |
| Rules.MissingHintMatchesNilIdentifier | lib/inject/rule.rb:13-15 | a missing `:before` (or `:after`) reads as nil and so matches a rule whose identifier is nil |
| Rules.PrecedesFalseOtherwise | lib/inject/rule.rb:13-15 | with no matching hint on either side the result is false |
| Rules.SetterRule | lib/injector.rb:85-87 | the rule `set` inserts has identifier `:setter` and `before: :all`, and no `:after` |
| InjectorState.Initialize | lib/injector.rb:7-14 | the new injector has one setter rule per entry, `:injector` cached to itself and no other key in the memo, and no callbacks |
| InjectorState.InitializeIsOneSetPerEntry | lib/injector.rb:11-13 | the initial state equals `set` of any one entry applied to the initialization of the others, for every placement |
| InjectorState.InsertionAddsRule | lib/injector.rb:106 | pushing a rule into a queue adds exactly that rule to its contents and one to its length |
| InjectorState.InsertRule | lib/injector.rb:105-106 | the key's queue is created if needed and gets the rule at some position, with the other rules in their old order, so its multiset gains exactly that rule; other keys keep their queue and their registration; memo and callbacks unchanged |
| InjectorState.Insert | lib/injector.rb:96-98 | the key's queue is the old one with the rule built from the arguments put in at some position; other keys keep their queue and their registration; memo and callbacks unchanged |
| InjectorState.Set | lib/injector.rb:85-87 | the key's queue is the old one with the setter rule for the value put in at some position; other keys keep their queue and their registration; memo and callbacks unchanged |
| InjectorState.InsertRules | lib/injector.rb:101-103 | each key's queue gains, as a multiset, exactly the given rules for that key; a key none of them names keeps its queue; the registered keys are the old ones plus the keys the rules name |
| InjectorState.InsertRulesAppend | lib/injector.rb:101-103 | `insert_rules(a + b)` is `insert_rules(a)` followed by `insert_rules(b)` |
| InjectorState.InsertPlacedLast | lib/injector.rb:96-98 | when the queue places the new rule after all stored ones, `insert` appends it |
| InjectorState.Survivors | lib/injector.rb:115-117 | `delete_if` leaves no rule with the identifier, and deletes nothing when no rule has it |
| InjectorState.SurvivorsKeepOthers | lib/injector.rb:115-117 | every rule with another identifier survives, and only rules of the queue survive |
| InjectorState.SurvivorsMultiplicity | lib/injector.rb:115-117 | each rule with another identifier survives as many times as it occurs; rules with the identifier occur zero times |
| InjectorState.SurvivorsAppend | lib/injector.rb:115-117 | `delete_if` works rule by rule: on a concatenation it is the concatenation of its results on the parts |
| InjectorState.Invalidate | lib/injector.rb:110-122 | with a queue for the key it returns true and empties the queue (`:all`) or removes the rules with that identifier; the key stays registered; without one it returns nil and changes nothing; the memo is never touched |
| InjectorState.InvalidateUndoesInsertRule | lib/injector.rb:110-122 | invalidating by the identifier of a rule just inserted into a queue without that identifier returns true and gives back the state before the insert, wherever the rule was placed |
| InjectorState.InvalidateUndoesSet | lib/injector.rb:110-122 | `invalidate(key, :setter)` undoes `set` on a queue that held no setter rule |
| InjectorState.AddCallback | lib/injector.rb:125-128 | the callback is appended to the list of the given key, or of its first parameter's name; with neither it raises; no other list changes |
| InjectorState.WhenFetched | lib/injector.rb:92-94 | succeeds exactly when a key is given or the block has a parameter, and then appends the block to the `:after_fetch` list of that key or that parameter's name; every other list, the rules and the memo stay |
| Callables.Assemble | lib/injector.rb:71-82 | the keyword hash is passed exactly when a `:key` parameter exists; without one all bound values are passed positionally in order |
| Callables.PositionalPlacement | lib/injector.rb:71-75 | a non-`:key` parameter's value is the k-th positional argument, where k counts the non-`:key` parameters before it |
| Callables.KeywordPlacement | lib/injector.rb:71-73 | a `:key` parameter's value is in the hash under its name, unless a later `:key` parameter has the same name |
| Callables.AllPositional | lib/injector.rb:74-79 | without `:key` parameters the positional arguments are exactly the bound values |
| Resolution.Get | lib/injector.rb:16-41 | a truthy memo entry is returned with nothing changed, whatever the overrides; an unmemoized key without a queue raises `RuleNotFound` naming the key and all registered keys; a successful result is memoized; rules, callbacks and truthy memo entries are never changed; a nil result fires nothing, a non-nil one fires each of the key's callbacks once, in order |
| Resolution.Scan | lib/injector.rb:24-39 | the reverse scan fires callbacks only for its own key and the winning value, all of them in registration order, and none when the result is nil |
| Resolution.Evaluate | lib/injector.rb:26-33 | a literal value is used as is without touching the state or firing anything |
| Resolution.Fire | lib/injector.rb:130-134 | the callbacks registered for the key are invoked at most once each, in registration order, all of them when the firing succeeds; every invocation carries the key, value and identifier fired |
| Resolution.FireFrom | lib/injector.rb:131-133 | the invocations fired directly are for callbacks i, i+1, ... in order, all carrying the key, value and identifier |
| Resolution.FireOverrides | lib/injector.rb:132 | the overrides hash of a firing has exactly the keys index 0 and `method`, holding the value and the identifier |
| Resolution.FiredArguments | lib/injector.rb:71-82 | bound values holding the fired value first and the identifier at every later `method` parameter are assembled so that the value is the first positional argument, or the hash entry of a `:key` first parameter whose name no later `:key` parameter reuses, and every `method` argument, positional or in the hash, is the identifier |
| Resolution.PreparedForFiring | lib/injector.rb:132 | `inject` with `{0 => value, method: identifier}` prepares, whenever it succeeds, arguments of exactly that shape for any callback |
| Resolution.FireFromAsInjected | lib/injector.rb:131-133 | every callback the loop invokes was injected with the value at index 0 and the identifier as `method`; each one returned except possibly the last, which may have raised; a raising callback is the last one invoked |
| Resolution.FireAsInjected | lib/injector.rb:130-134 | the same for `fire` over the key's registered callbacks |
| Resolution.Inject | lib/injector.rb:43-83 | the block is called with the arguments binding assembled, from the state binding left; a binding error is raised instead and the block is not called; a `*rest` or `**keyrest` parameter raises; rules, callbacks and truthy memo entries never change |
| Resolution.Prepare | lib/injector.rb:46-82 | the arguments are the bound values split into positional ones and the keyword hash, which is present exactly when a `:key` parameter exists; binding errors pass through; an index-0 override reaches a positional first parameter as the first argument |
| Resolution.Bind | lib/injector.rb:46-76 | each bound value is the override at its index, else the one at its name; a splat parameter makes binding fail; with every parameter overridden no lookup happens |
| Resolution.BindParam | lib/injector.rb:55-70 | the index override wins over the name override, and both over `get` of the name with no overrides, by key presence; a non-`:key` parameter gets exactly what that `get` gives, errors included; a `:key` parameter gets the same except that `RuleNotFound` becomes nil |
| Resolution.Reverse | lib/injector.rb:25 | the scan order is the stored queue read backwards |
| BindingProperties.BindSettled | lib/injector.rb:46-76 | parameters bound by overrides or truthy memo entries run no rule and change nothing; their values are collected in order |
| BindingProperties.SettledParametersResolveNothing | lib/injector.rb:43-83 | when every parameter is overridden or memoized, `inject` changes no state, fires nothing and calls the block with exactly those values, assembled |
| BindingProperties.ParameterBoundByGet | lib/injector.rb:55-70 | the first parameter that is neither overridden nor memoized, if not `:key`, receives what `get` of its name returns, at its position; an error from that `get` ends `inject` with it |
| BindingProperties.MissingRequiredParameterRaises | lib/injector.rb:66-68 | such a parameter whose name has no rule makes `inject` raise `RuleNotFound` for its name, at any position, without calling the block or changing anything |
| BindingProperties.MissingKeyParameterIsNil | lib/injector.rb:62-72 | a `:key` parameter whose name has no rule is bound to nil, binding goes on, and the keyword hash maps its name to nil |
| ResolutionProperties.Winner | lib/injector.rb:25-37 | reference for a queue of literals: the last stored non-nil rule, none exactly when all are nil |
| ResolutionProperties.ScanOfLiterals | lib/injector.rb:25-37 | scanning a reversed literal queue returns nil with nothing changed when all rules are nil, else it amounts to firing the winner's callbacks and returning its value |
| ResolutionProperties.GetOfLiterals | lib/injector.rb:18-40 | `get` on an unmemoized literal queue returns the winner's value (nil if none, then memoized as nil with nothing fired); every notice carries the winner's identifier |
| ResolutionProperties.EvaluateCallsProducer | lib/injector.rb:28-29 | a producer rule's value is what `inject` makes of its block with the overrides `get` was given |
| ResolutionProperties.ScanStopsAtFirstValue | lib/injector.rb:34-37 | the first rule with a non-nil value ends the scan: its callbacks fire with its identifier and the rules after it are never evaluated |
| ResolutionProperties.ScanPassesOverNil | lib/injector.rb:25-38 | a rule yielding nil hands the scan on to the next rule, from the state it left; a raising rule ends the scan with its error |
| ResolutionProperties.EarlierRulesNotEvaluated | lib/injector.rb:25-37 | when the last stored rule yields a non-nil value, `get` is that evaluation followed by the firing of the callbacks; no earlier rule (producers included) is evaluated |
| ResolutionProperties.LastLiteralWins | lib/injector.rb:25-37 | a non-nil literal stored last is what an unmemoized `get` returns, with its identifier on every notice |
| ResolutionProperties.MemoSurvivesStoreEdits | lib/injector.rb:18 | after `get` returned a truthy value, later `get`s return it with any overrides, also after `insert_rule` or `invalidate` |
| ResolutionProperties.FalsyResultNotServedFromMemo | lib/injector.rb:18 | after a nil or false result the memo is not truthy for the key, so the next `get` scans the rules again |
| ResolutionProperties.FalseRefiresCallbacks | lib/injector.rb:18-36 | with a literal `false` stored last, whatever the earlier rules, callbacks and overrides, a `get` that succeeds returns `false` and invokes every callback of the key; the next `get`, when it succeeds, again returns `false` and invokes every callback again |
| ResolutionProperties.InvalidatedKeyResolvesToNil | lib/injector.rb:110-121 | after `invalidate(key)` an unmemoized `get` returns nil instead of raising |
| ResolutionProperties.InjectorResolvesToItself | lib/injector.rb:9 | `get(:injector)` returns the injector itself, even when an entry of that name was given |
| ResolutionProperties.InitialEntryResolves | lib/injector.rb:11-13 | a literal passed to the constructor is what `get` returns for its key |
| ResolutionProperties.FollowingRuleWins | lib/inject/rule.rb:15 | a rule with `after:` naming rule x of the same queue compares after x; stored last, after x, as a non-nil literal, it is the one `get` returns, whatever x and the other rules hold |
| ResolutionProperties.InsertedLastRuleWins | lib/injector.rb:96-98 | `insert` then `get`: a non-nil literal the queue places last is what the next unmemoized `get` returns |
| ResolutionProperties.RegisteredCallbackFires | lib/injector.rb:130-134 | `when_fetched` then `get`: once the key resolves to non-nil, the new block is invoked last, after the ones registered before it |
| ResolutionProperties.CallbackArguments | lib/injector.rb:132 | a callback with parameters `value, method` is injected with exactly the fired value and identifier, positionally, and nothing is resolved |
| ResolutionProperties.FireSingleCallback | lib/injector.rb:130-134 | firing a key with one callback that returns records exactly one invocation, at index 0 |
| ResolutionProperties.CallbackSeesValueAndIdentifier | lib/injector.rb:130-134 | end to end: `get` returns the last stored literal and invokes a callback with parameters `value, method` once with that value and the rule's identifier |

## Left out

- Placement inside the `pqueue` gem (lib/injector.rb:1, 106, 119): the gem is not part of this model. The index a pushed rule gets is a parameter. `PQueue#replace` in `invalidate` may sort the kept rules again; the model keeps them in their old order.
- InjectorState.InsertRule: states only that the rule lands at some position with the other rules in their old order, because the position is decided by `pqueue`.
- InjectorState.Invalidate: states the kept rules in their old order, for the same reason.
- `define_singleton_method(rule.key)` (lib/injector.rb:107) and the `method_missing` setter sugar (lib/injector.rb:136-139): these are metaprogramming, and a per-key reader is only `get(key)`.
- The aliases `[]`, `[]=` and `provide` (lib/injector.rb:89-90, 99): these are the same functions under other names.
- Ruby reflection: `block.parameters` is an explicit parameter list, and `is_a?(Proc)` is the `Literal`/`Producer` tag. `block.source_location` is left out of the `ArgumentError` message.
- Producers and callbacks are pure functions of their arguments. They cannot mutate the injector they may receive through `:injector`, so `get` never changes rules or callbacks in the model. A producer cannot return a Proc as a value.
- Non-termination: re-entrant or cyclic resolution is cut off by `fuel` with `OutOfFuel`, where Ruby would recurse until the stack overflows.
- Error messages: `RuleNotFound` carries the key and the set of registered keys. The message wording and the order of the key list (Ruby hash order) are left out.
- Keys are symbols, modelled by their names. Non-symbol keys and the insertion order of the keyword hash are left out.
- Resolution.Evaluate: its own contract covers only the literal case; the producer case (`inject` of the block) is stated by ResolutionProperties.EvaluateCallsProducer, because inside the mutually recursive group it would be assumed by every proof that unfolds `get`.
- Resolution.Fire: what each callback is injected with and that a raising callback stops the rest are stated by Resolution.FireAsInjected rather than in Fire's own contract, because inside the mutually recursive group those clauses are assumed by every proof that unfolds `get`.

=== FILE: binding.dfy ===
/** Properties of `inject` (lib/injector.rb:43-83) over whole parameter lists:
    which parameters are bound without running a rule, which go through
    `get`, and what a missing rule does at any position. */
module BindingProperties {
  import opened Values
  import opened Callables
  import opened InjectorState
  import opened Resolution

  /** The parameter at `j` is bound without running any rule: it has an
      override, or `get` of its name is answered from a truthy memo entry. */
  predicate Settled(st: State, ov: Overrides, params: seq<Param>, j: nat)
    requires j < |params|
  {
    Overridden(ov, params, j) || CachedTruthy(st, params[j].name)
  }

  /** What a settled parameter is bound to: the index override, else the name
      override, else the memo entry. */
  function SettledValue(st: State, ov: Overrides, params: seq<Param>, j: nat): (v: Value)
    requires j < |params| && Settled(st, ov, params, j)
  {
    if Index(j) in ov then ov[Index(j)]
    else if Named(params[j].name) in ov then ov[Named(params[j].name)]
    else st.cache[params[j].name]
  }

  /** The values of the settled parameters `i` up to `j`, in order. */
  function SettledValues(st: State, ov: Overrides, params: seq<Param>, i: nat, j: nat): (vals: seq<Value>)
    requires i <= j <= |params|
    requires forall k :: i <= k < j ==> Settled(st, ov, params, k)
    ensures |vals| == j - i
    ensures forall k :: i <= k < j ==> vals[k - i] == SettledValue(st, ov, params, k)
    decreases j - i
  {
    if i == j then [] else [SettledValue(st, ov, params, i)] + SettledValues(st, ov, params, i + 1, j)
  }

  /** Binding a run of settled parameters changes nothing but the values
      collected: no rule runs, no callback fires, the state stays. */
  lemma {:induction false} BindSettled(st: State, ov: Overrides, params: seq<Param>, i: nat, j: nat,
                                       acc: seq<Value>, depth: nat, fuel: nat)
    requires i <= j <= |params| && |acc| == i
    requires forall k :: i <= k < j ==> Settled(st, ov, params, k) && !IsSplat(params[k])
    ensures Bind(st, ov, params, i, acc, depth, fuel) ==
      Bind(st, ov, params, j, acc + SettledValues(st, ov, params, i, j), depth, fuel)
    decreases j - i
  {
    if i == j {
      assert acc + [] == acc;
    } else {
      var v := SettledValue(st, ov, params, i);
      BindSettledStep(st, ov, params, i, acc, depth, fuel);
      BindSettled(st, ov, params, i + 1, j, acc + [v], depth, fuel);
      SettledValuesCons(st, ov, params, i, j, acc);
    }
  }

  /** One settled parameter: its value is appended and nothing else happens. */
  lemma BindSettledStep(st: State, ov: Overrides, params: seq<Param>, i: nat, acc: seq<Value>, depth: nat, fuel: nat)
    requires i < |params| && |acc| == i
    requires Settled(st, ov, params, i) && !IsSplat(params[i])
    ensures Bind(st, ov, params, i, acc, depth, fuel) ==
      Bind(st, ov, params, i + 1, acc + [SettledValue(st, ov, params, i)], depth, fuel)
  {
    var v := SettledValue(st, ov, params, i);
    assert BindParam(st, ov, params[i], i, depth, fuel) == Outcome(Ok(v), st, []);
    var rest := Bind(st, ov, params, i + 1, acc + [v], depth, fuel);
    assert [] + rest.trace == rest.trace;
  }

  lemma SettledValuesCons(st: State, ov: Overrides, params: seq<Param>, i: nat, j: nat, acc: seq<Value>)
    requires i < j <= |params|
    requires forall k :: i <= k < j ==> Settled(st, ov, params, k)
    ensures acc + [SettledValue(st, ov, params, i)] + SettledValues(st, ov, params, i + 1, j) ==
      acc + SettledValues(st, ov, params, i, j)
  {
    var tail := SettledValues(st, ov, params, i + 1, j);
    assert SettledValues(st, ov, params, i, j) == [SettledValue(st, ov, params, i)] + tail;
    assert acc + [SettledValue(st, ov, params, i)] + tail == acc + ([SettledValue(st, ov, params, i)] + tail);
  }

  /** When every parameter is settled and none is a splat, `inject` resolves
      nothing: the state and the trace stay, and the block is called with the
      overrides and memo entries, assembled into positional and keyword
      arguments. */
  lemma SettledParametersResolveNothing(st: State, ov: Overrides, c: Callable, depth: nat, fuel: nat)
    requires forall j :: 0 <= j < |c.params| ==> Settled(st, ov, c.params, j)
    requires !HasSplat(c.params)
    ensures Inject(st, ov, c, depth, fuel) ==
      Outcome(c.body(Assemble(c.params, SettledValues(st, ov, c.params, 0, |c.params|))), st, [])
  {
    BindSettled(st, ov, c.params, 0, |c.params|, [], depth, fuel);
    assert [] + SettledValues(st, ov, c.params, 0, |c.params|) == SettledValues(st, ov, c.params, 0, |c.params|);
  }

  /** The first parameter at `j` that is not settled and not a `:key`
      parameter is bound to what `get` of its name returns (with no
      overrides, one level deeper): an error from `get` ends the binding with
      that error; otherwise binding continues from the state `get` left, and
      the value ends up at position `j`. */
  lemma ParameterBoundByGet(st: State, ov: Overrides, params: seq<Param>, j: nat, depth: nat, fuel: nat)
    requires j < |params|
    requires forall k :: 0 <= k < j ==> Settled(st, ov, params, k) && !IsSplat(params[k])
    requires !Overridden(ov, params, j) && !IsKeyword(params[j]) && !IsSplat(params[j])
    ensures var g := Get(st, params[j].name, map[], depth + 1, fuel);
      var b := Bind(st, ov, params, 0, [], depth, fuel);
      && (g.result.Err? ==> b == Outcome(Err(g.result.error), g.st, g.trace))
      && (g.result.Ok? ==>
            var rest := Bind(g.st, ov, params, j + 1, SettledValues(st, ov, params, 0, j) + [g.result.value], depth, fuel);
            b == Outcome(rest.result, rest.st, g.trace + rest.trace))
      && (b.result.Ok? ==> g.result.Ok? && b.result.value[j] == g.result.value)
  {
    var pre := SettledValues(st, ov, params, 0, j);
    BindSettled(st, ov, params, 0, j, [], depth, fuel);
    assert [] + pre == pre;
    var g := Get(st, params[j].name, map[], depth + 1, fuel);
    assert BindParam(st, ov, params[j], j, depth, fuel) == g;
  }

  /** A required or optional parameter at `j` whose name has no rule and no
      memo entry makes `inject` raise `RuleNotFound` for that name, once the
      parameters before it are settled: nothing is called and nothing changes. */
  lemma MissingRequiredParameterRaises(st: State, ov: Overrides, c: Callable, j: nat, depth: nat, fuel: nat)
    requires j < |c.params|
    requires forall k :: 0 <= k < j ==> Settled(st, ov, c.params, k) && !IsSplat(c.params[k])
    requires !Overridden(ov, c.params, j) && !IsKeyword(c.params[j]) && !IsSplat(c.params[j])
    requires !CachedTruthy(st, c.params[j].name) && c.params[j].name !in st.rules
    ensures Inject(st, ov, c, depth, fuel) ==
      Outcome(Err(RuleNotFound(c.params[j].name, st.rules.Keys)), st, [])
  {
    ParameterBoundByGet(st, ov, c.params, j, depth, fuel);
  }

  /** A `:key` parameter at `j` whose name has no rule and no memo entry is
      bound to nil and binding goes on, once the parameters before it are
      settled; unless a later `:key` parameter has the same name, the block's
      trailing hash maps that name to nil. */
  lemma MissingKeyParameterIsNil(st: State, ov: Overrides, c: Callable, j: nat, depth: nat, fuel: nat)
    requires j < |c.params|
    requires forall k :: 0 <= k < j ==> Settled(st, ov, c.params, k) && !IsSplat(c.params[k])
    requires !Overridden(ov, c.params, j) && IsKeyword(c.params[j])
    requires !CachedTruthy(st, c.params[j].name) && c.params[j].name !in st.rules
    ensures Bind(st, ov, c.params, 0, [], depth, fuel) ==
      Bind(st, ov, c.params, j + 1, SettledValues(st, ov, c.params, 0, j) + [Nil], depth, fuel)
    ensures (forall k :: j < k < |c.params| && IsKeyword(c.params[k]) ==> c.params[k].name != c.params[j].name) ==>
      var p := Prepare(st, ov, c, depth, fuel);
      p.result.Ok? ==>
        && p.result.value.keywords.Some?
        && c.params[j].name in p.result.value.keywords.value
        && p.result.value.keywords.value[c.params[j].name] == Nil
  {
    var pre := SettledValues(st, ov, c.params, 0, j);
    BindSettled(st, ov, c.params, 0, j, [], depth, fuel);
    assert [] + pre == pre;
    assert BindParam(st, ov, c.params[j], j, depth, fuel) == Outcome(Ok(Nil), st, []);
    var rest := Bind(st, ov, c.params, j + 1, pre + [Nil], depth, fuel);
    assert [] + rest.trace == rest.trace;
    var b := Bind(st, ov, c.params, 0, [], depth, fuel);
    assert b == rest;
    if (forall k :: j < k < |c.params| && IsKeyword(c.params[k]) ==> c.params[k].name != c.params[j].name) && b.result.Ok? {
      var vals := b.result.value;
      assert vals[j] == (pre + [Nil])[j] == Nil;
      assert HasKeyword(c.params);
      KeywordPlacement(c.params, vals, |c.params|, j);
    }
  }
}

=== FILE: callables.dfy ===
/** Producers and callbacks: an explicit parameter list standing for
    `block.parameters`, and how bound values are split into positional
    arguments and the trailing keyword hash (lib/injector.rb:71-82). */
module Callables {
  import opened Values

  /** The parameter kinds Ruby reports in `parameters`. */
  datatype ParamKind =
    | Req       // :req
    | Opt       // :opt, every parameter of a plain block
    | Rest      // :rest, *args
    | KeyReq    // :keyreq
    | KeyOpt    // :key
    | KeyRest   // :keyrest, **opts
    | BlockArg  // :block, &blk

  datatype Param = Param(kind: ParamKind, name: Key)

  predicate IsSplat(p: Param) {
    p.kind == Rest || p.kind == KeyRest
  }

  /** Only `:key` parameters go into the trailing hash; `:keyreq` is passed positionally. */
  predicate IsKeyword(p: Param) {
    p.kind == KeyOpt
  }

  predicate HasSplat(params: seq<Param>) {
    exists j :: 0 <= j < |params| && IsSplat(params[j])
  }

  predicate HasKeyword(params: seq<Param>) {
    exists j :: 0 <= j < |params| && IsKeyword(params[j])
  }

  /** The arguments a callable is finally called with: `*params` and, when
      present, the `keys` hash. */
  datatype Args = Args(positional: seq<Value>, keywords: Option<map<Key, Value>>)

  /** A Proc or Method: its declared parameters and what it computes from the
      arguments it receives (it may raise). */
  datatype Callable = Callable(params: seq<Param>, body: Args -> Result<Value>)

  /** How many of the first `n` parameters are passed positionally. */
  function PositionalCount(params: seq<Param>, n: nat): (c: nat)
    requires n <= |params|
    ensures c <= n
    ensures c == n <==> forall j :: 0 <= j < n ==> !IsKeyword(params[j])
  {
    if n == 0 then 0
    else PositionalCount(params, n - 1) + (if IsKeyword(params[n - 1]) then 0 else 1)
  }

  /** The `params` array after the first `n` parameters. */
  function PositionalUpTo(params: seq<Param>, vals: seq<Value>, n: nat): (r: seq<Value>)
    requires n <= |params| == |vals|
    ensures |r| == PositionalCount(params, n)
  {
    if n == 0 then []
    else PositionalUpTo(params, vals, n - 1) + (if IsKeyword(params[n - 1]) then [] else [vals[n - 1]])
  }

  /** The `keys` hash after the first `n` parameters. */
  function KeywordsUpTo(params: seq<Param>, vals: seq<Value>, n: nat): (m: map<Key, Value>)
    requires n <= |params| == |vals|
    ensures forall k :: k in m ==> exists j :: 0 <= j < n && IsKeyword(params[j]) && params[j].name == k
    ensures forall j :: 0 <= j < n && IsKeyword(params[j]) ==> params[j].name in m
  {
    if n == 0 then map[]
    else
      var m := KeywordsUpTo(params, vals, n - 1);
      if IsKeyword(params[n - 1]) then m[params[n - 1].name := vals[n - 1]] else m
  }

  /** `block.call(*params)` or `block.call(*params, keys)`: the hash is passed
      only when at least one `:key` parameter exists. */
  function Assemble(params: seq<Param>, vals: seq<Value>): (a: Args)
    requires |vals| == |params|
    ensures a.keywords.Some? <==> HasKeyword(params)
    ensures a.keywords.None? ==> a.positional == vals
  {
    AllPositional(params, vals, |params|);
    Args(PositionalUpTo(params, vals, |params|),
         if HasKeyword(params) then Some(KeywordsUpTo(params, vals, |params|)) else None)
  }

  /** Without `:key` parameters every bound value is passed positionally, in declared order. */
  lemma {:induction false} AllPositional(params: seq<Param>, vals: seq<Value>, n: nat)
    requires n <= |params| == |vals|
    ensures (forall j :: 0 <= j < n ==> !IsKeyword(params[j])) ==> PositionalUpTo(params, vals, n) == vals[..n]
  {
    if n > 0 && forall j :: 0 <= j < n ==> !IsKeyword(params[j]) {
      AllPositional(params, vals, n - 1);
      assert vals[..n] == vals[..n - 1] + [vals[n - 1]];
    }
  }

  /** The value bound to a non-keyword parameter `j` lands at position
      "number of non-keyword parameters before `j`" of the positional arguments. */
  lemma {:induction false} PositionalPlacement(params: seq<Param>, vals: seq<Value>, n: nat, j: nat)
    requires n <= |params| == |vals|
    requires j < n && !IsKeyword(params[j])
    ensures PositionalCount(params, j) < |PositionalUpTo(params, vals, n)|
    ensures PositionalUpTo(params, vals, n)[PositionalCount(params, j)] == vals[j]
  {
    if j < n - 1 {
      PositionalPlacement(params, vals, n - 1, j);
      PositionalCountMonotone(params, j + 1, n - 1);
    }
  }

  /** A non-keyword first parameter is the first positional argument. */
  lemma FirstPositional(params: seq<Param>, vals: seq<Value>)
    requires |params| == |vals|
    ensures |params| > 0 && !IsKeyword(params[0]) ==>
      |PositionalUpTo(params, vals, |params|)| > 0 && PositionalUpTo(params, vals, |params|)[0] == vals[0]
  {
    if |params| > 0 && !IsKeyword(params[0]) {
      PositionalPlacement(params, vals, |params|, 0);
    }
  }

  lemma {:induction false} PositionalCountMonotone(params: seq<Param>, a: nat, b: nat)
    requires a <= b <= |params|
    ensures PositionalCount(params, a) <= PositionalCount(params, b)
  {
    if a < b {
      PositionalCountMonotone(params, a, b - 1);
    }
  }

  /** A `:key` parameter's bound value is what the hash holds under its name,
      unless a later `:key` parameter of the same name overwrote it. */
  lemma {:induction false} KeywordPlacement(params: seq<Param>, vals: seq<Value>, n: nat, j: nat)
    requires n <= |params| == |vals|
    requires j < n && IsKeyword(params[j])
    requires forall j' :: j < j' < n && IsKeyword(params[j']) ==> params[j'].name != params[j].name
    ensures params[j].name in KeywordsUpTo(params, vals, n)
    ensures KeywordsUpTo(params, vals, n)[params[j].name] == vals[j]
  {
    if j < n - 1 {
      KeywordPlacement(params, vals, n - 1, j);
    }
  }

  /** When every `:key` parameter named `k` after the first parameter is bound
      to `x`, and there is one, the hash maps `k` to `x`: whichever of them
      is written last, it writes `x`. */
  lemma {:induction false} KeywordBoundAlike(params: seq<Param>, vals: seq<Value>, n: nat, k: Key, x: Value)
    requires n <= |params| == |vals|
    requires exists j :: 0 < j < n && IsKeyword(params[j]) && params[j].name == k
    requires forall j :: 0 < j < n && IsKeyword(params[j]) && params[j].name == k ==> vals[j] == x
    ensures k in KeywordsUpTo(params, vals, n) && KeywordsUpTo(params, vals, n)[k] == x
  {
    if !(IsKeyword(params[n - 1]) && params[n - 1].name == k) {
      var j :| 0 < j < n && IsKeyword(params[j]) && params[j].name == k;
      assert j < n - 1;
      KeywordBoundAlike(params, vals, n - 1, k, x);
    }
  }
}

=== FILE: properties.dfy ===
/** Properties of resolution that relate several calls, or relate a call to
    an independent description of its result. */
module ResolutionProperties {
  import opened Values
  import opened Callables
  import opened Rules
  import opened InjectorState
  import opened Resolution
  import opened BindingProperties

  predicate AllLiteral(q: seq<Rule>) {
    forall i :: 0 <= i < |q| ==> q[i].value.Literal?
  }

  /** Reference for a queue of literals: the rule stored last whose value is
      not nil. */
  function Winner(q: seq<Rule>): (w: Option<Rule>)
    requires AllLiteral(q)
    ensures w.None? <==> forall i :: 0 <= i < |q| ==> q[i].value.v == Nil
    ensures w.Some? ==> w.value.value.Literal? && w.value.value.v != Nil
    ensures w.Some? ==>
      exists i :: 0 <= i < |q| && q[i] == w.value && (forall j :: i < j < |q| ==> q[j].value.v == Nil)
  {
    if q == [] then None
    else if q[|q| - 1].value.v != Nil then Some(q[|q| - 1])
    else
      var w := Winner(q[..|q| - 1]);
      assert forall i :: 0 <= i < |q| - 1 ==> q[..|q| - 1][i] == q[i];
      w
  }

  /** Scanning a reversed queue of literals evaluates nothing: its outcome is
      firing the callbacks for the winner, or nil when there is none. */
  lemma {:induction false} ScanOfLiterals(st: State, key: Key, q: seq<Rule>, ov: Overrides, depth: nat, fuel: nat)
    requires AllLiteral(q)
    ensures var r := Scan(st, key, Reverse(q), ov, depth, fuel);
      match Winner(q)
      case None => r == Outcome(Ok(Nil), st, [])
      case Some(w) =>
        var f := Fire(st, AfterFetch, key, w.value.v, w.identifier, depth, fuel);
        r == Outcome(if f.result.Ok? then Ok(w.value.v) else Err(f.result.error), f.st, f.trace)
  {
    if q != [] {
      var n := |q| - 1;
      var rev := Reverse(q);
      assert rev[0] == q[n];
      assert rev[1..] == Reverse(q[..n]);
      var e := Evaluate(st, q[n].value, ov, depth, fuel);
      assert e == Outcome(Ok(q[n].value.v), st, []);
      if q[n].value.v == Nil {
        assert AllLiteral(q[..n]);
        ScanOfLiterals(st, key, q[..n], ov, depth, fuel);
        assert [] + Scan(st, key, rev[1..], ov, depth, fuel).trace == Scan(st, key, rev[1..], ov, depth, fuel).trace;
      } else {
        var f := Fire(st, AfterFetch, key, q[n].value.v, q[n].identifier, depth, fuel);
        assert [] + f.trace == f.trace;
      }
    }
  }

  /** `get` on an uncached key whose rules are all literals: the reverse scan
      returns the value of the last stored non-nil rule (nil if there is
      none), every notice carries that rule's identifier, and with no
      callbacks registered nothing but the memo changes. */
  lemma GetOfLiterals(st: State, key: Key, ov: Overrides, depth: nat, fuel: nat)
    requires key in st.rules && !CachedTruthy(st, key) && fuel > 0
    requires AllLiteral(st.rules[key])
    ensures var r := Get(st, key, ov, depth, fuel);
      match Winner(st.rules[key])
      case None => r == Outcome(Ok(Nil), st.(cache := st.cache[key := Nil]), [])
      case Some(w) =>
        && (r.result.Ok? ==> r.result.value == w.value.v)
        && (forall n :: n in Level(r.trace, depth) ==> n.identifier == w.identifier)
        && (CallbacksOf(st, AfterFetch, key) == [] ==>
              r == Outcome(Ok(w.value.v), st.(cache := st.cache[key := w.value.v]), []))
  {
    if Winner(st.rules[key]).None? {
      NoLiteralWinner(st, key, ov, depth, fuel);
    } else {
      LiteralWinner(st, key, ov, depth, fuel);
      var w := Winner(st.rules[key]).value;
      if CallbacksOf(st, AfterFetch, key) == [] {
        assert Fire(st, AfterFetch, key, w.value.v, w.identifier, depth, fuel - 1) ==
          FireFrom(st, [], 0, key, w.value.v, w.identifier, depth, fuel - 1);
      }
    }
  }

  lemma NoLiteralWinner(st: State, key: Key, ov: Overrides, depth: nat, fuel: nat)
    requires key in st.rules && !CachedTruthy(st, key) && fuel > 0
    requires AllLiteral(st.rules[key]) && Winner(st.rules[key]).None?
    ensures Get(st, key, ov, depth, fuel) == Outcome(Ok(Nil), st.(cache := st.cache[key := Nil]), [])
  {
    ScanOfLiterals(st, key, st.rules[key], ov, depth, fuel - 1);
  }

  lemma LiteralWinner(st: State, key: Key, ov: Overrides, depth: nat, fuel: nat)
    requires key in st.rules && !CachedTruthy(st, key) && fuel > 0
    requires AllLiteral(st.rules[key]) && Winner(st.rules[key]).Some?
    ensures var w := Winner(st.rules[key]).value;
      var f := Fire(st, AfterFetch, key, w.value.v, w.identifier, depth, fuel - 1);
      Get(st, key, ov, depth, fuel) ==
        if f.result.Ok? then Outcome(Ok(w.value.v), f.st.(cache := f.st.cache[key := w.value.v]), f.trace)
        else Outcome(Err(f.result.error), f.st, f.trace)
  {
    ScanOfLiterals(st, key, st.rules[key], ov, depth, fuel - 1);
  }

  /** A producer rule's value is what `inject` makes of its block, called
      with the overrides `get` was given. */
  lemma EvaluateCallsProducer(st: State, c: Callable, ov: Overrides, depth: nat, fuel: nat)
    ensures Evaluate(st, Producer(c), ov, depth, fuel) == Inject(st, ov, c, depth, fuel)
  {
  }

  /** The scan stops at the first rule whose value is not nil: it fires the
      key's callbacks with that rule's identifier and never evaluates the
      rules after it, so the outcome is the same whatever `visit[1..]` holds. */
  lemma ScanStopsAtFirstValue(st: State, key: Key, head: Rule, visit: seq<Rule>, ov: Overrides, depth: nat, fuel: nat)
    requires visit != [] && visit[0] == head
    requires var e := Evaluate(st, head.value, ov, depth, fuel); e.result.Ok? && e.result.value != Nil
    ensures var e := Evaluate(st, head.value, ov, depth, fuel);
      var f := Fire(e.st, AfterFetch, key, e.result.value, head.identifier, depth, fuel);
      Scan(st, key, visit, ov, depth, fuel) ==
        Outcome(if f.result.Ok? then e.result else Err(f.result.error), f.st, e.trace + f.trace)
  {
  }

  /** A rule whose value is nil hands the scan on to the rules after it, from
      the state its evaluation left; a raising rule ends the scan with its
      error. */
  lemma ScanPassesOverNil(st: State, key: Key, visit: seq<Rule>, ov: Overrides, depth: nat, fuel: nat)
    requires visit != []
    ensures var e := Evaluate(st, visit[0].value, ov, depth, fuel);
      && (e.result.Err? ==> Scan(st, key, visit, ov, depth, fuel) == e)
      && (e.result == Ok(Nil) ==>
            var r := Scan(e.st, key, visit[1..], ov, depth, fuel);
            Scan(st, key, visit, ov, depth, fuel) == Outcome(r.result, r.st, e.trace + r.trace))
  {
  }

  /** Only the last stored rule is evaluated when its value is not nil
      (a literal, or a producer that returns something): the rules before it,
      producers included, are never run; its identifier goes to the callbacks
      and its value to the memo. */
  lemma EarlierRulesNotEvaluated(st: State, key: Key, ov: Overrides, depth: nat, fuel: nat)
    requires key in st.rules && !CachedTruthy(st, key) && fuel > 0 && |st.rules[key]| > 0
    requires Evaluate(st, st.rules[key][|st.rules[key]| - 1].value, ov, depth, fuel - 1).result.Ok?
    requires Evaluate(st, st.rules[key][|st.rules[key]| - 1].value, ov, depth, fuel - 1).result.value != Nil
    ensures var last := st.rules[key][|st.rules[key]| - 1];
      var e := Evaluate(st, last.value, ov, depth, fuel - 1);
      var f := Fire(e.st, AfterFetch, key, e.result.value, last.identifier, depth, fuel - 1);
      var g := Get(st, key, ov, depth, fuel);
      && g.trace == e.trace + f.trace
      && (f.result.Ok? ==> g.result == e.result && g.st == f.st.(cache := f.st.cache[key := e.result.value]))
      && (f.result.Err? ==> g.result == Err(f.result.error) && g.st == f.st)
  {
    var q := st.rules[key];
    assert Reverse(q)[0] == q[|q| - 1];
  }

  /** A key whose last stored rule is the non-nil literal `v`: `get` returns
      `v` unless a callback raises, every callback gets the rule's identifier,
      and with no callbacks registered only the memo changes. */
  lemma LastLiteralWins(st: State, key: Key, ov: Overrides, depth: nat, fuel: nat, v: Value)
    requires key in st.rules && !CachedTruthy(st, key) && fuel > 0
    requires |st.rules[key]| > 0 && st.rules[key][|st.rules[key]| - 1].value == Literal(v) && v != Nil
    ensures var g := Get(st, key, ov, depth, fuel);
      && (g.result.Ok? ==> g.result.value == v)
      && (forall n :: n in Level(g.trace, depth) ==> n.identifier == st.rules[key][|st.rules[key]| - 1].identifier)
      && (CallbacksOf(st, AfterFetch, key) == [] ==> g == Outcome(Ok(v), st.(cache := st.cache[key := v]), []))
  {
    var last := st.rules[key][|st.rules[key]| - 1];
    EarlierRulesNotEvaluated(st, key, ov, depth, fuel);
    var f := Fire(st, AfterFetch, key, v, last.identifier, depth, fuel - 1);
    assert [] + f.trace == f.trace;
    if CallbacksOf(st, AfterFetch, key) == [] {
      assert f == FireFrom(st, [], 0, key, v, last.identifier, depth, fuel - 1);
    }
  }

  /** Once `get` has returned a truthy value, later `get`s return it without
      looking at rules or overrides, even after rules were inserted or
      invalidated. */
  lemma MemoSurvivesStoreEdits(st: State, key: Key, ov: Overrides, depth: nat, fuel: nat,
                               rule: Rule, place: Placement, other: Key, id: Value,
                               ov': Overrides, depth': nat, fuel': nat)
    requires ValidPlacement(place)
    requires Get(st, key, ov, depth, fuel).result.Ok? && Truthy(Get(st, key, ov, depth, fuel).result.value)
    ensures var g := Get(st, key, ov, depth, fuel);
      var inserted := InsertRule(g.st, rule, place);
      var removed := Invalidate(g.st, other, id).1;
      && Get(inserted, key, ov', depth', fuel') == Outcome(g.result, inserted, [])
      && Get(removed, key, ov', depth', fuel') == Outcome(g.result, removed, [])
  {
  }

  /** A nil or false result is stored but never served: the next `get`
      scans the rules again. */
  lemma FalsyResultNotServedFromMemo(st: State, key: Key, ov: Overrides, depth: nat, fuel: nat)
    requires Get(st, key, ov, depth, fuel).result.Ok? && !Truthy(Get(st, key, ov, depth, fuel).result.value)
    ensures var g := Get(st, key, ov, depth, fuel);
      !CachedTruthy(g.st, key) && key in g.st.rules
  {
  }

  /** A literal `false` stored last wins the scan whatever the earlier rules
      hold, and fires every callback of the key; since `||=` does not serve
      it from the memo, the next `get` scans again and fires them all again. */
  lemma FalseRefiresCallbacks(st: State, key: Key, ov: Overrides, depth: nat, fuel: nat)
    requires key in st.rules && !CachedTruthy(st, key) && fuel > 0
    requires |st.rules[key]| > 0 && st.rules[key][|st.rules[key]| - 1].value == Literal(False)
    ensures var g := Get(st, key, ov, depth, fuel);
      g.result.Ok? ==>
        && g.result == Ok(False)
        && |Level(g.trace, depth)| == |CallbacksOf(st, AfterFetch, key)|
    ensures var g := Get(st, key, ov, depth, fuel);
      var again := Get(g.st, key, ov, depth, fuel);
      g.result.Ok? && again.result.Ok? ==>
        && again.result == Ok(False)
        && |Level(again.trace, depth)| == |CallbacksOf(st, AfterFetch, key)|
  {
    var g := Get(st, key, ov, depth, fuel);
    LastLiteralWins(st, key, ov, depth, fuel, False);
    if g.result.Ok? {
      FalsyResultNotServedFromMemo(st, key, ov, depth, fuel);
      LastLiteralWins(g.st, key, ov, depth, fuel, False);
    }
  }

  /** `invalidate(key)` keeps the key's (now empty) queue, so an uncached
      `get` afterwards returns nil instead of raising. */
  lemma InvalidatedKeyResolvesToNil(st: State, key: Key, ov: Overrides, depth: nat, fuel: nat)
    requires key in st.rules && !CachedTruthy(st, key) && fuel > 0
    ensures var st' := Invalidate(st, key, ALL).1;
      Get(st', key, ov, depth, fuel) == Outcome(Ok(Nil), st'.(cache := st'.cache[key := Nil]), [])
  {
  }

  /** The injector answers `:injector` with itself, even if an entry of that
      name was passed to `Initialize`. */
  lemma InjectorResolvesToItself(params: map<Key, RuleValue>, ov: Overrides, depth: nat, fuel: nat)
    ensures Get(Initialize(params), INJECTOR, ov, depth, fuel) ==
      Outcome(Ok(InjectorRef), Initialize(params), [])
  {
  }

  /** `Injector.new(a: 10)[:a] == 10`. */
  lemma InitialEntryResolves(params: map<Key, RuleValue>, k: Key, v: Value, ov: Overrides, depth: nat, fuel: nat)
    requires k in params && k != INJECTOR && params[k] == Literal(v) && fuel > 0
    ensures Get(Initialize(params), k, ov, depth, fuel).result == Ok(v)
  {
    var st := Initialize(params);
    assert AllLiteral(st.rules[k]);
    GetOfLiterals(st, k, ov, depth, fuel);
  }

  /** Rule `y` asks to follow rule `x` of the same queue (`after:` naming
      `x`'s identifier), so `x <=> y` holds. When `y` is a non-nil literal
      stored last, after `x`, `get` returns `y`'s value and reports `y`'s
      identifier to the callbacks, whatever `x` and the other rules hold. */
  lemma FollowingRuleWins(st: State, key: Key, x: Rule, ov: Overrides, depth: nat, fuel: nat, v: Value)
    requires key in st.rules && !CachedTruthy(st, key) && fuel > 0 && |st.rules[key]| > 0
    requires x in st.rules[key][..|st.rules[key]| - 1]
    requires var y := st.rules[key][|st.rules[key]| - 1];
      Hint(y, "after") == x.identifier && y.value == Literal(v) && v != Nil
    ensures var y := st.rules[key][|st.rules[key]| - 1];
      var g := Get(st, key, ov, depth, fuel);
      && Precedes(x, y)
      && (g.result.Ok? ==> g.result.value == v)
      && (forall n :: n in Level(g.trace, depth) ==> n.identifier == y.identifier)
      && (CallbacksOf(st, AfterFetch, key) == [] ==> g.result == Ok(v))
  {
    LastLiteralWins(st, key, ov, depth, fuel, v);
  }

  /** `insert` followed by `get`: a non-nil literal that the queue places last
      is what the next uncached `get` returns. */
  lemma InsertedLastRuleWins(st: State, key: Key, id: Value, v: Value, options: map<Key, Value>,
                             place: Placement, ov: Overrides, depth: nat, fuel: nat)
    requires ValidPlacement(place)
    requires place(Queue(st, key), NewRule(key, id, Literal(v), options)) == |Queue(st, key)|
    requires !CachedTruthy(st, key) && fuel > 0 && v != Nil
    ensures var st' := Insert(st, key, id, Literal(v), options, place);
      var g := Get(st', key, ov, depth, fuel);
      && (g.result.Ok? ==> g.result.value == v)
      && (forall n :: n in Level(g.trace, depth) ==> n.identifier == id)
      && (CallbacksOf(st, AfterFetch, key) == [] ==> g == Outcome(Ok(v), st'.(cache := st'.cache[key := v]), []))
  {
    var rule := NewRule(key, id, Literal(v), options);
    var st' := Insert(st, key, id, Literal(v), options, place);
    InsertPlacedLast(st, key, id, Literal(v), options, place);
    var q' := st'.rules[key];
    assert q'[|q'| - 1] == rule;
    assert st'.cache == st.cache && st'.callbacks == st.callbacks;
    LastLiteralWins(st', key, ov, depth, fuel, v);
  }

  /** `when_fetched` followed by `get`: once the key resolves to something
      other than nil, the new block is invoked, last, after the blocks
      registered before it. */
  lemma RegisteredCallbackFires(st: State, key: Option<Key>, cb: Callable, ov: Overrides, depth: nat, fuel: nat)
    requires key.Some? || cb.params != []
    ensures var k := if key.Some? then key.value else cb.params[0].name;
      var st' := WhenFetched(st, key, cb).value;
      var g := Get(st', k, ov, depth, fuel);
      var level := Level(g.trace, depth);
      g.result.Ok? && g.result.value != Nil && !CachedTruthy(st, k) ==>
        && |level| == |CallbacksOf(st, AfterFetch, k)| + 1
        && level[|level| - 1].index == |CallbacksOf(st, AfterFetch, k)|
  {
  }

  /** A callback `|value, method|` fired with a value and an identifier
      receives exactly those two, positionally; nothing is resolved. */
  lemma CallbackArguments(st: State, cb: Callable, v: Value, id: Value, depth: nat, fuel: nat)
    requires cb.params == [Param(Opt, "value"), Param(Opt, "method")]
    ensures Prepare(st, FireOverrides(v, id), cb, depth, fuel) == Outcome(Ok(Args([v, id], None)), st, [])
  {
    var ov := FireOverrides(v, id);
    assert Settled(st, ov, cb.params, 0) && Settled(st, ov, cb.params, 1);
    BindSettled(st, ov, cb.params, 0, 2, [], depth, fuel);
    var vals := SettledValues(st, ov, cb.params, 0, 2);
    assert vals == [v, id];
    assert [] + vals == [v, id];
    assert !HasKeyword(cb.params);
  }

  /** Firing a key with one callback whose arguments resolve without side
      effects and whose call returns: one notice, at index 0. */
  lemma FireSingleCallback(st: State, key: Key, cb: Callable, v: Value, id: Value, args: Args, depth: nat, fuel: nat)
    requires CallbacksOf(st, AfterFetch, key) == [cb]
    requires Prepare(st, FireOverrides(v, id), cb, depth, fuel) == Outcome(Ok(args), st, [])
    requires cb.body(args).Ok?
    ensures Fire(st, AfterFetch, key, v, id, depth, fuel) == Outcome(Ok(()), st, [Notice(key, 0, v, id, args, depth)])
  {
    var n := Notice(key, 0, v, id, args, depth);
    assert FireFrom(st, [cb], 1, key, v, id, depth, fuel) == Outcome(Ok(()), st, []);
    assert [] + [n] + [] == [n];
  }

  /** End to end: a key whose last stored rule is the literal `v`, with one
      callback `|value, method|` registered. `get` returns `v`, and the
      callback is invoked once with `v` and the rule's identifier. */
  lemma CallbackSeesValueAndIdentifier(st: State, key: Key, depth: nat, fuel: nat, cb: Callable, v: Value, id: Value)
    requires key in st.rules && !CachedTruthy(st, key) && fuel > 0
    requires |st.rules[key]| > 0 && st.rules[key][|st.rules[key]| - 1] == Rule(key, id, Literal(v), map[]) && v != Nil
    requires CallbacksOf(st, AfterFetch, key) == [cb]
    requires cb.params == [Param(Opt, "value"), Param(Opt, "method")]
    requires cb.body(Args([v, id], None)).Ok?
    ensures Get(st, key, map[], depth, fuel) ==
      Outcome(Ok(v), st.(cache := st.cache[key := v]), [Notice(key, 0, v, id, Args([v, id], None), depth)])
  {
    CallbackArguments(st, cb, v, id, depth, fuel - 1);
    FireSingleCallback(st, key, cb, v, id, Args([v, id], None), depth, fuel - 1);
    EarlierRulesNotEvaluated(st, key, map[], depth, fuel);
    assert [] + [Notice(key, 0, v, id, Args([v, id], None), depth)] == [Notice(key, 0, v, id, Args([v, id], None), depth)];
  }
}

=== FILE: resolution.dfy ===
/** Resolution (`get`, lib/injector.rb:16-41), parameter binding (`inject`,
    lib/injector.rb:43-83) and callback firing (`fire`, lib/injector.rb:130-134).
    They call each other, so they are one mutually recursive group. Each call
    threads the state, returns what it computed together with the state reached
    (also on an error: Ruby does not roll back what a raised call already
    cached) and the callback invocations it caused. `fuel` bounds the
    re-entrant recursion; `depth` counts how many `get`s are open on the stack
    and is recorded with each callback invocation. */
module Resolution {
  import opened Values
  import opened Callables
  import opened Rules
  import opened InjectorState

  /** Keys of an `overrides` hash: a parameter position or a parameter name. */
  datatype Slot = Index(i: nat) | Named(name: Key)

  type Overrides = map<Slot, Value>

  /** One `after_fetch` callback invocation: the key fired, the callback's
      position in that key's list, the value and rule identifier fired with,
      the arguments the callback was called with, and the depth of the `get`
      that fired it. */
  datatype Notice = Notice(key: Key, index: nat, value: Value, identifier: Value, args: Args, depth: nat)

  type Trace = seq<Notice>

  datatype Outcome<+T> = Outcome(result: Result<T>, st: State, trace: Trace)

  /** The invocations fired directly by the `get` at depth `d`. */
  function Level(t: Trace, d: nat): (r: Trace)
    ensures |r| <= |t|
    ensures forall n :: n in r ==> n in t && n.depth == d
  {
    if t == [] then [] else (if t[0].depth == d then [t[0]] else []) + Level(t[1..], d)
  }

  lemma {:induction false} LevelAppend(a: Trace, b: Trace, d: nat)
    ensures Level(a + b, d) == Level(a, d) + Level(b, d)
  {
    if a == [] {
      assert a + b == b;
    } else {
      var head := if a[0].depth == d then [a[0]] else [];
      assert (a + b)[0] == a[0];
      assert (a + b)[1..] == a[1..] + b;
      LevelAppend(a[1..], b, d);
      calc {
        Level(a + b, d);
        head + Level(a[1..] + b, d);
        head + (Level(a[1..], d) + Level(b, d));
        (head + Level(a[1..], d)) + Level(b, d);
      }
    }
  }

  /** A firing step: deeper notices, then one at depth `d`, then the rest. */
  lemma LevelOfFiring(pt: Trace, n: Notice, rt: Trace, d: nat)
    requires DeeperThan(pt, d) && n.depth == d
    ensures Level(pt + [n], d) == [n]
    ensures Level(pt + [n] + rt, d) == [n] + Level(rt, d)
  {
    LevelDeeper(pt, d);
    LevelAppend(pt, [n], d);
    LevelAppend(pt + [n], rt, d);
  }

  lemma {:induction false} LevelDeeper(t: Trace, d: nat)
    requires DeeperThan(t, d)
    ensures Level(t, d) == []
  {
    if t != [] {
      LevelDeeper(t[1..], d);
    }
  }

  ghost predicate DeeperThan(t: Trace, d: nat) {
    forall n :: n in t ==> n.depth > d
  }

  ghost predicate NotShallower(t: Trace, d: nat) {
    forall n :: n in t ==> n.depth >= d
  }

  /** `level` lists callbacks `from`, `from + 1`, ... in registration order. */
  ghost predicate InOrderFrom(level: Trace, from: nat) {
    forall j :: 0 <= j < |level| ==> level[j].index == from + j
  }

  /** The parameter at position `j` has an override (by index or by name). */
  predicate Overridden(ov: Overrides, params: seq<Param>, j: nat)
    requires j < |params|
  {
    Index(j) in ov || Named(params[j].name) in ov
  }

  /** `{method: identifier, 0 => value}`, the overrides a callback is injected with. */
  function FireOverrides(value: Value, identifier: Value): (ov: Overrides)
    ensures ov.Keys == {Index(0), Named("method")}
    ensures ov[Index(0)] == value && ov[Named("method")] == identifier
  {
    map[Named("method") := identifier, Index(0) := value]
  }

  /** What a callback injected with `{0 => value, method: identifier}` is
      called with: a positional first parameter gets `value` as the first
      argument, a `:key` first parameter gets it in the hash (unless a later
      `:key` parameter takes the same name), and every later parameter named
      `method` gets `identifier`, positionally or in the hash. */
  predicate ReceivesFireOverrides(params: seq<Param>, a: Args, value: Value, identifier: Value) {
    && (|params| > 0 && !IsKeyword(params[0]) ==> |a.positional| > 0 && a.positional[0] == value)
    && (|params| > 0 && IsKeyword(params[0]) &&
        (forall j :: 0 < j < |params| && IsKeyword(params[j]) ==> params[j].name != params[0].name) ==>
          a.keywords.Some? && params[0].name in a.keywords.value && a.keywords.value[params[0].name] == value)
    && (forall j :: 0 < j < |params| && params[j].name == "method" && !IsKeyword(params[j]) ==>
          PositionalCount(params, j) < |a.positional| && a.positional[PositionalCount(params, j)] == identifier)
    && ((exists j :: 0 < j < |params| && params[j].name == "method" && IsKeyword(params[j])) ==>
          a.keywords.Some? && "method" in a.keywords.value && a.keywords.value["method"] == identifier)
  }

  /** Bound values that hold `value` first and `identifier` for every later
      `method` parameter are assembled into arguments of that shape. */
  lemma FiredArguments(params: seq<Param>, vals: seq<Value>, value: Value, identifier: Value)
    requires |vals| == |params|
    requires |params| > 0 ==> vals[0] == value
    requires forall j :: 0 < j < |params| && params[j].name == "method" ==> vals[j] == identifier
    ensures ReceivesFireOverrides(params, Assemble(params, vals), value, identifier)
  {
    var a := Assemble(params, vals);
    FirstPositional(params, vals);
    if |params| > 0 && IsKeyword(params[0]) &&
       (forall j :: 0 < j < |params| && IsKeyword(params[j]) ==> params[j].name != params[0].name) {
      assert HasKeyword(params);
      KeywordPlacement(params, vals, |params|, 0);
    }
    forall j | 0 < j < |params| && params[j].name == "method" && !IsKeyword(params[j])
      ensures PositionalCount(params, j) < |a.positional| && a.positional[PositionalCount(params, j)] == identifier
    {
      PositionalPlacement(params, vals, |params|, j);
    }
    if exists j :: 0 < j < |params| && params[j].name == "method" && IsKeyword(params[j]) {
      assert HasKeyword(params);
      KeywordBoundAlike(params, vals, |params|, "method", identifier);
    }
  }

  /** The stored queue read backwards (`to_a.reverse`). */
  function Reverse<T>(s: seq<T>): (r: seq<T>)
    ensures |r| == |s|
    ensures forall i :: 0 <= i < |s| ==> r[i] == s[|s| - 1 - i]
  {
    if s == [] then [] else [s[|s| - 1]] + Reverse(s[..|s| - 1])
  }

  /** `get(key, overrides)`. A truthy memo entry is returned at once; a key
      without a queue raises `RuleNotFound` naming it and every known key;
      otherwise the rules are scanned and the outcome (even nil or false) is
      written to the memo. */
  function Get(st: State, key: Key, ov: Overrides, depth: nat, fuel: nat): (r: Outcome<Value>)
    decreases fuel, 0, 0, 0
    ensures Extends(st, r.st)
    ensures NotShallower(r.trace, depth)
    ensures CachedTruthy(st, key) ==> r == Outcome(Ok(st.cache[key]), st, [])
    ensures !CachedTruthy(st, key) && key !in st.rules ==>
      r == Outcome(Err(RuleNotFound(key, st.rules.Keys)), st, [])
    ensures r.result.Ok? ==> key in r.st.cache && r.st.cache[key] == r.result.value
    ensures forall n :: n in Level(r.trace, depth) ==> n.key == key
    ensures r.result.Ok? ==> forall n :: n in Level(r.trace, depth) ==> n.value == r.result.value
    ensures r.result == Ok(Nil) ==> Level(r.trace, depth) == []
    ensures r.result.Ok? && r.result.value != Nil && !CachedTruthy(st, key) ==>
      |Level(r.trace, depth)| == |CallbacksOf(st, AfterFetch, key)| && InOrderFrom(Level(r.trace, depth), 0)
  {
    if CachedTruthy(st, key) then Outcome(Ok(st.cache[key]), st, [])
    else if key !in st.rules then Outcome(Err(RuleNotFound(key, st.rules.Keys)), st, [])
    else if fuel == 0 then Outcome(Err(OutOfFuel), st, [])
    else
      var s := Scan(st, key, Reverse(st.rules[key]), ov, depth, fuel - 1);
      if s.result.Err? then s
      else Outcome(s.result, s.st.(cache := s.st.cache[key := s.result.value]), s.trace)
  }

  /** The loop over the reversed queue: the first non-nil result wins, fires
      the key's callbacks with the winning rule's identifier and stops the
      scan; when every rule yields nil the result is nil. */
  function Scan(st: State, key: Key, visit: seq<Rule>, ov: Overrides, depth: nat, fuel: nat): (r: Outcome<Value>)
    decreases fuel, 1, 3, |visit|
    ensures Extends(st, r.st)
    ensures NotShallower(r.trace, depth)
    ensures forall n :: n in Level(r.trace, depth) ==> n.key == key
    ensures r.result.Ok? ==> forall n :: n in Level(r.trace, depth) ==> n.value == r.result.value
    ensures r.result == Ok(Nil) ==> Level(r.trace, depth) == []
    ensures r.result.Ok? && r.result.value != Nil ==>
      |Level(r.trace, depth)| == |CallbacksOf(st, AfterFetch, key)| && InOrderFrom(Level(r.trace, depth), 0)
  {
    if visit == [] then Outcome(Ok(Nil), st, [])
    else
      var e := Evaluate(st, visit[0].value, ov, depth, fuel);
      LevelDeeper(e.trace, depth);
      if e.result.Err? then e
      else if e.result.value != Nil then
        var f := Fire(e.st, AfterFetch, key, e.result.value, visit[0].identifier, depth, fuel);
        LevelAppend(e.trace, f.trace, depth);
        ExtendsTransitive(st, e.st, f.st);
        Outcome(if f.result.Ok? then e.result else Err(f.result.error), f.st, e.trace + f.trace)
      else
        var rest := Scan(e.st, key, visit[1..], ov, depth, fuel);
        LevelAppend(e.trace, rest.trace, depth);
        ExtendsTransitive(st, e.st, rest.st);
        Outcome(rest.result, rest.st, e.trace + rest.trace)
  }

  /** One rule's value: a literal is used as is, a producer is called through `inject`. */
  function Evaluate(st: State, value: RuleValue, ov: Overrides, depth: nat, fuel: nat): (r: Outcome<Value>)
    decreases fuel, 1, 2, 0
    ensures Extends(st, r.st)
    ensures DeeperThan(r.trace, depth)
    ensures value.Literal? ==> r == Outcome(Ok(value.v), st, [])
  {
    match value
    case Literal(v) => Outcome(Ok(v), st, [])
    case Producer(c) => Inject(st, ov, c, depth, fuel)
  }

  /** `fire(event, key, value, identifier)`. */
  function Fire(st: State, event: Event, key: Key, value: Value, identifier: Value, depth: nat, fuel: nat): (r: Outcome<()>)
    decreases fuel, 1, 2, |CallbacksOf(st, event, key)| + 1
    ensures Extends(st, r.st)
    ensures NotShallower(r.trace, depth)
    ensures forall n :: n in Level(r.trace, depth) ==> n.key == key && n.value == value && n.identifier == identifier
    ensures |Level(r.trace, depth)| <= |CallbacksOf(st, event, key)| && InOrderFrom(Level(r.trace, depth), 0)
    ensures r.result.Ok? ==> |Level(r.trace, depth)| == |CallbacksOf(st, event, key)|
  {
    FireFrom(st, CallbacksOf(st, event, key), 0, key, value, identifier, depth, fuel)
  }

  /** Callbacks `i`, `i + 1`, ... of `cbs`, each injected with
      `{0 => value, method: identifier}`; a raising callback stops the rest. */
  function FireFrom(st: State, cbs: seq<Callable>, i: nat, key: Key, value: Value, identifier: Value,
                    depth: nat, fuel: nat): (r: Outcome<()>)
    requires i <= |cbs|
    decreases fuel, 1, 2, |cbs| - i
    ensures Extends(st, r.st)
    ensures NotShallower(r.trace, depth)
    ensures forall n :: n in Level(r.trace, depth) ==> n.key == key && n.value == value && n.identifier == identifier
    ensures |Level(r.trace, depth)| <= |cbs| - i && InOrderFrom(Level(r.trace, depth), i)
    ensures r.result.Ok? ==> |Level(r.trace, depth)| == |cbs| - i
  {
    if i == |cbs| then Outcome(Ok(()), st, [])
    else
      var p := Prepare(st, FireOverrides(value, identifier), cbs[i], depth, fuel);
      LevelDeeper(p.trace, depth);
      if p.result.Err? then Outcome(Err(p.result.error), p.st, p.trace)
      else
        var n := Notice(key, i, value, identifier, p.result.value, depth);
        var called := cbs[i].body(p.result.value);
        if called.Err? then
          LevelOfFiring(p.trace, n, [], depth);
          Outcome(Err(called.error), p.st, p.trace + [n])
        else
          var rest := FireFrom(p.st, cbs, i + 1, key, value, identifier, depth, fuel);
          LevelOfFiring(p.trace, n, rest.trace, depth);
          ExtendsTransitive(st, p.st, rest.st);
          Outcome(rest.result, rest.st, p.trace + [n] + rest.trace)
  }

  /** `inject` with the fired overrides prepares arguments of that shape. */
  lemma PreparedForFiring(st: State, c: Callable, value: Value, identifier: Value, depth: nat, fuel: nat)
    ensures var p := Prepare(st, FireOverrides(value, identifier), c, depth, fuel);
      p.result.Ok? ==> ReceivesFireOverrides(c.params, p.result.value, value, identifier)
  {
    var ov := FireOverrides(value, identifier);
    var b := Bind(st, ov, c.params, 0, [], depth, fuel);
    if b.result.Ok? {
      FiredArguments(c.params, b.result.value, value, identifier);
    }
  }

  /** Notice `m` is for a callback of `cbs` that received the fired overrides. */
  predicate Received(cbs: seq<Callable>, m: Notice, value: Value, identifier: Value) {
    m.index < |cbs| && ReceivesFireOverrides(cbs[m.index].params, m.args, value, identifier)
  }

  /** Notice `m` is for a callback of `cbs` whose call returned without raising. */
  predicate Returned(cbs: seq<Callable>, m: Notice) {
    m.index < |cbs| && cbs[m.index].body(m.args).Ok?
  }

  /** The invocations `l` of callbacks from `cbs`: each callback received the
      fired overrides, and each returned except possibly the last, which may
      have raised when `ok` is false. So a raising callback is the last one
      invoked, and a firing that succeeded saw every invoked callback return. */
  predicate FiredAsInjected(cbs: seq<Callable>, l: Trace, ok: bool, value: Value, identifier: Value) {
    && (forall m :: m in l ==> Received(cbs, m, value, identifier))
    && (forall k :: 0 <= k < |l| && (k < |l| - 1 || ok) ==> Returned(cbs, l[k]))
  }

  /** One firing step that returned, followed by the rest of the firing. */
  lemma FiredStep(cbs: seq<Callable>, pt: Trace, n: Notice, rt: Trace, ok: bool,
                  value: Value, identifier: Value, depth: nat)
    requires DeeperThan(pt, depth) && n.depth == depth
    requires Received(cbs, n, value, identifier) && Returned(cbs, n)
    requires FiredAsInjected(cbs, Level(rt, depth), ok, value, identifier)
    ensures FiredAsInjected(cbs, Level(pt + [n] + rt, depth), ok, value, identifier)
  {
    LevelOfFiring(pt, n, rt, depth);
    FiredCons(cbs, n, Level(rt, depth), ok, value, identifier);
  }

  lemma FiredCons(cbs: seq<Callable>, n: Notice, l: Trace, ok: bool, value: Value, identifier: Value)
    requires Received(cbs, n, value, identifier) && Returned(cbs, n)
    requires FiredAsInjected(cbs, l, ok, value, identifier)
    ensures FiredAsInjected(cbs, [n] + l, ok, value, identifier)
  {
    assert forall k :: 1 <= k < |l| + 1 ==> ([n] + l)[k] == l[k - 1];
  }

  /** One firing step whose callback raised ends the firing. */
  lemma FiredLast(cbs: seq<Callable>, pt: Trace, n: Notice, value: Value, identifier: Value, depth: nat)
    requires DeeperThan(pt, depth) && n.depth == depth
    requires Received(cbs, n, value, identifier)
    ensures FiredAsInjected(cbs, Level(pt + [n], depth), false, value, identifier)
  {
    LevelOfFiring(pt, n, [], depth);
  }

  /** What `fire` does to each callback: it is injected with
      `{0 => value, method: identifier}`, and a callback that raises is the
      last one invoked. */
  lemma {:induction false} FireFromAsInjected(st: State, cbs: seq<Callable>, i: nat, key: Key, value: Value,
                                              identifier: Value, depth: nat, fuel: nat)
    requires i <= |cbs|
    ensures var r := FireFrom(st, cbs, i, key, value, identifier, depth, fuel);
      FiredAsInjected(cbs, Level(r.trace, depth), r.result.Ok?, value, identifier)
    decreases |cbs| - i
  {
    if i < |cbs| {
      var p := Prepare(st, FireOverrides(value, identifier), cbs[i], depth, fuel);
      LevelDeeper(p.trace, depth);
      PreparedForFiring(st, cbs[i], value, identifier, depth, fuel);
      if p.result.Ok? {
        var n := Notice(key, i, value, identifier, p.result.value, depth);
        if cbs[i].body(p.result.value).Err? {
          FiredLast(cbs, p.trace, n, value, identifier, depth);
        } else {
          var rest := FireFrom(p.st, cbs, i + 1, key, value, identifier, depth, fuel);
          FireFromAsInjected(p.st, cbs, i + 1, key, value, identifier, depth, fuel);
          FiredStep(cbs, p.trace, n, rest.trace, rest.result.Ok?, value, identifier, depth);
        }
      }
    }
  }

  /** `fire` over the key's registered callbacks: each invoked callback was
      injected with the value at index 0 and the identifier as `method`, and
      every one but a raising last one returned. */
  lemma FireAsInjected(st: State, event: Event, key: Key, value: Value, identifier: Value, depth: nat, fuel: nat)
    ensures var r := Fire(st, event, key, value, identifier, depth, fuel);
      FiredAsInjected(CallbacksOf(st, event, key), Level(r.trace, depth), r.result.Ok?, value, identifier)
  {
    FireFromAsInjected(st, CallbacksOf(st, event, key), 0, key, value, identifier, depth, fuel);
  }

  /** `inject(overrides, &block)`: bind the parameters, then call the block. */
  function Inject(st: State, ov: Overrides, c: Callable, depth: nat, fuel: nat): (r: Outcome<Value>)
    decreases fuel, 1, 1, 1
    ensures Extends(st, r.st)
    ensures DeeperThan(r.trace, depth)
    ensures HasSplat(c.params) ==> r.result.Err?
    ensures var p := Prepare(st, ov, c, depth, fuel);
      && (p.result.Ok? ==> r == Outcome(c.body(p.result.value), p.st, p.trace))
      && (p.result.Err? ==> r == Outcome(Err(p.result.error), p.st, p.trace))
  {
    var p := Prepare(st, ov, c, depth, fuel);
    if p.result.Err? then Outcome(Err(p.result.error), p.st, p.trace)
    else Outcome(c.body(p.result.value), p.st, p.trace)
  }

  /** The arguments `inject` calls the block with. */
  function Prepare(st: State, ov: Overrides, c: Callable, depth: nat, fuel: nat): (r: Outcome<Args>)
    decreases fuel, 1, 1, 0
    ensures Extends(st, r.st)
    ensures DeeperThan(r.trace, depth)
    ensures HasSplat(c.params) ==> r.result.Err?
    ensures r.result.Ok? ==> (r.result.value.keywords.Some? <==> HasKeyword(c.params))
    ensures r.result.Ok? && |c.params| > 0 && !IsKeyword(c.params[0]) && Index(0) in ov ==>
      |r.result.value.positional| > 0 && r.result.value.positional[0] == ov[Index(0)]
    ensures var b := Bind(st, ov, c.params, 0, [], depth, fuel);
      && r.st == b.st && r.trace == b.trace
      && (r.result.Ok? <==> b.result.Ok?)
      && (b.result.Ok? ==> r.result.value == Assemble(c.params, b.result.value))
      && (b.result.Err? ==> r.result.error == b.result.error)
  {
    var b := Bind(st, ov, c.params, 0, [], depth, fuel);
    if b.result.Err? then Outcome(Err(b.result.error), b.st, b.trace)
    else
      var vals := b.result.value;
      FirstPositional(c.params, vals);
      Outcome(Ok(Assemble(c.params, vals)), b.st, b.trace)
  }

  /** The loop over `block.parameters` from position `i`, with `acc` the
      values bound so far. A splat parameter raises when it is reached. */
  function Bind(st: State, ov: Overrides, params: seq<Param>, i: nat, acc: seq<Value>,
                depth: nat, fuel: nat): (r: Outcome<seq<Value>>)
    requires i <= |params| && |acc| == i
    decreases fuel, 1, 0, |params| - i
    ensures Extends(st, r.st)
    ensures DeeperThan(r.trace, depth)
    ensures (exists j :: i <= j < |params| && IsSplat(params[j])) ==> r.result.Err?
    ensures r.result.Ok? ==> |r.result.value| == |params|
    ensures r.result.Ok? ==> forall j :: 0 <= j < i ==> r.result.value[j] == acc[j]
    ensures r.result.Ok? ==> forall j :: i <= j < |params| && Index(j) in ov ==> r.result.value[j] == ov[Index(j)]
    ensures r.result.Ok? ==> forall j :: i <= j < |params| && Index(j) !in ov && Named(params[j].name) in ov ==>
      r.result.value[j] == ov[Named(params[j].name)]
    ensures (forall j :: i <= j < |params| ==> Overridden(ov, params, j)) ==>
      r.st == st && r.trace == [] && (r.result.Ok? <==> !exists j :: i <= j < |params| && IsSplat(params[j]))
  {
    if i == |params| then Outcome(Ok(acc), st, [])
    else if IsSplat(params[i]) then Outcome(Err(SplatParameter(params[i].name)), st, [])
    else
      var b := BindParam(st, ov, params[i], i, depth, fuel);
      assert Overridden(ov, params, i) ==> b.st == st && b.trace == [];
      if b.result.Err? then Outcome(Err(b.result.error), b.st, b.trace)
      else
        var rest := Bind(b.st, ov, params, i + 1, acc + [b.result.value], depth, fuel);
        ExtendsTransitive(st, b.st, rest.st);
        Outcome(rest.result, rest.st, b.trace + rest.trace)
  }

  /** One parameter: the override at its index, else the override at its
      name (by key presence, so an override of nil counts), else `get(name)`
      with no overrides. For a `:key` parameter a `RuleNotFound` from that
      `get` is swallowed and the parameter is bound to nil. */
  function BindParam(st: State, ov: Overrides, p: Param, j: nat, depth: nat, fuel: nat): (r: Outcome<Value>)
    decreases fuel, 0, 1, 0
    ensures Extends(st, r.st)
    ensures DeeperThan(r.trace, depth)
    ensures Index(j) in ov ==> r == Outcome(Ok(ov[Index(j)]), st, [])
    ensures Index(j) !in ov && Named(p.name) in ov ==> r == Outcome(Ok(ov[Named(p.name)]), st, [])
    ensures Index(j) !in ov && Named(p.name) !in ov && !CachedTruthy(st, p.name) && p.name !in st.rules ==>
      r == if IsKeyword(p) then Outcome(Ok(Nil), st, []) else Outcome(Err(RuleNotFound(p.name, st.rules.Keys)), st, [])
    ensures Index(j) !in ov && Named(p.name) !in ov && CachedTruthy(st, p.name) ==>
      r == Outcome(Ok(st.cache[p.name]), st, [])
    ensures Index(j) !in ov && Named(p.name) !in ov && !IsKeyword(p) ==>
      r == Get(st, p.name, map[], depth + 1, fuel)
    ensures Index(j) !in ov && Named(p.name) !in ov && IsKeyword(p) ==>
      var g := Get(st, p.name, map[], depth + 1, fuel);
      && r.st == g.st && r.trace == g.trace
      && r.result == if g.result.Err? && g.result.error.RuleNotFound? then Ok(Nil) else g.result
    ensures IsKeyword(p) ==> !(r.result.Err? && r.result.error.RuleNotFound?)
  {
    if Index(j) in ov then Outcome(Ok(ov[Index(j)]), st, [])
    else if Named(p.name) in ov then Outcome(Ok(ov[Named(p.name)]), st, [])
    else
      var g := Get(st, p.name, map[], depth + 1, fuel);
      if IsKeyword(p) && g.result.Err? && g.result.error.RuleNotFound? then Outcome(Ok(Nil), g.st, g.trace)
      else g
  }
}

=== FILE: rule.dfy ===
/** `Inject::Rule`: an immutable candidate provider for one key, and the
    boolean placement predicate `<=>` the priority queue orders rules with. */
module Rules {
  import opened Values
  import opened Callables

  /** A rule's value is either used as is or, for a Proc/Method, called through `inject`. */
  datatype RuleValue = Literal(v: Value) | Producer(c: Callable)

  /** `options` is the keyword hash given to `Rule.new`; only `:before` and
      `:after` are ever read. */
  datatype Rule = Rule(key: Key, identifier: Value, value: RuleValue, options: map<Key, Value>)

  /** `Rule.new(key, identifier, value, **options)` keeps all four fields as given. */
  function NewRule(key: Key, identifier: Value, value: RuleValue, options: map<Key, Value>): (r: Rule)
    ensures r.key == key && r.identifier == identifier
    ensures r.value == value && r.options == options
  {
    Rule(key, identifier, value, options)
  }

  /** `options[name]`: a missing option reads as nil. */
  function Hint(r: Rule, name: Key): (v: Value)
    ensures name in r.options ==> v == r.options[name]
    ensures name !in r.options ==> v == Nil
  {
    if name in r.options then r.options[name] else Nil
  }

  /** `a <=> b`: true when `a` asks to come before `b` (or before everything),
      or `b` asks to come after `a` (or after everything). Always a boolean. */
  function Precedes(a: Rule, b: Rule): (r: bool)
    ensures Hint(a, "before") == ALL || Hint(b, "after") == ALL ==> r
    ensures Hint(a, "before") == b.identifier || Hint(b, "after") == a.identifier ==> r
    ensures r ==> Hint(a, "before") == b.identifier || Hint(a, "before") == ALL ||
                  Hint(b, "after") == a.identifier || Hint(b, "after") == ALL
  {
    Hint(a, "before") in [b.identifier, ALL] || Hint(b, "after") in [a.identifier, ALL]
  }

  /** The rule `set(key, value)` inserts. */
  function SetterRule(key: Key, value: RuleValue): (r: Rule)
    ensures r.key == key && r.value == value
    ensures r.identifier == SETTER && Hint(r, "before") == ALL && Hint(r, "after") == Nil
  {
    NewRule(key, SETTER, value, map["before" := ALL])
  }

  /** `before: :all` puts a rule ahead of every other rule. */
  lemma BeforeAllPrecedesEverything(a: Rule, b: Rule)
    requires Hint(a, "before") == ALL
    ensures Precedes(a, b)
  {
  }

  /** `after: :all` puts every other rule ahead of this one. */
  lemma AfterAllFollowsEverything(a: Rule, b: Rule)
    requires Hint(b, "after") == ALL
    ensures Precedes(a, b)
  {
  }

  /** The predicate is not antisymmetric: two `set` rules for one key each
      come before the other. */
  lemma SetterRulesPrecedeEachOther(key: Key, v1: RuleValue, v2: RuleValue)
    ensures Precedes(SetterRule(key, v1), SetterRule(key, v2))
    ensures Precedes(SetterRule(key, v2), SetterRule(key, v1))
  {
  }

  /** A missing hint reads as nil, so it matches a rule whose identifier is nil
      (the default identifier of `insert`). */
  lemma MissingHintMatchesNilIdentifier(a: Rule, b: Rule)
    ensures "before" !in a.options && b.identifier == Nil ==> Precedes(a, b)
    ensures "after" !in b.options && a.identifier == Nil ==> Precedes(a, b)
  {
  }

  /** Without a matching hint on either side the answer is false (never 0 or nil). */
  lemma PrecedesFalseOtherwise(a: Rule, b: Rule)
    requires Hint(a, "before") != b.identifier && Hint(a, "before") != ALL
    requires Hint(b, "after") != a.identifier && Hint(b, "after") != ALL
    ensures !Precedes(a, b)
  {
  }
}

=== FILE: state.dfy ===
/** The injector's three tables and the operations that only edit them:
    the rule store (`insert`, `insert_rules`, `insert_rule`, `set`,
    `invalidate`) and the callback table (`when_fetched`, `add_callback`). */
module InjectorState {
  import opened Values
  import opened Callables
  import opened Rules

  /** The only event the engine fires is `:after_fetch`. */
  datatype Event = AfterFetch

  /** `@rules` (one stored queue per key), `@injected` (the memo) and `@callbacks`. */
  datatype State = State(
    rules: map<Key, seq<Rule>>,
    cache: map<Key, Value>,
    callbacks: map<Event, map<Key, seq<Callable>>>)

  /** The key `:injector`, under which the injector caches itself. */
  const INJECTOR: Key := "injector"

  /** The stored order of `key`'s queue (`to_a`), empty when there is none. */
  function Queue(st: State, key: Key): (q: seq<Rule>) {
    if key in st.rules then st.rules[key] else []
  }

  /** `@callbacks.fetch(event, {}).fetch(key, [])`. */
  function CallbacksOf(st: State, event: Event, key: Key): (cbs: seq<Callable>) {
    if event in st.callbacks && key in st.callbacks[event] then st.callbacks[event][key] else []
  }

  /** `@injected[key]` is truthy, so `||=` short-circuits. */
  predicate CachedTruthy(st: State, key: Key) {
    key in st.cache && Truthy(st.cache[key])
  }

  /** What resolution may do to the tables: the rule store and the callback
      table stay as they are, and no truthy memo entry is changed. */
  ghost predicate Extends(st: State, st': State) {
    && st'.rules == st.rules
    && st'.callbacks == st.callbacks
    && forall k :: CachedTruthy(st, k) ==> k in st'.cache && st'.cache[k] == st.cache[k]
  }

  lemma ExtendsTransitive(a: State, b: State, c: State)
    requires Extends(a, b) && Extends(b, c)
    ensures Extends(a, c)
  {
  }

  /** Where the priority queue puts a new rule is decided by the `pqueue` gem;
      the model takes that decision as a parameter. */
  type Placement = (seq<Rule>, Rule) -> nat

  ghost predicate ValidPlacement(place: Placement) {
    forall q, r :: place(q, r) <= |q|
  }

  /** `Initialize(**params)`: `:injector` is pre-cached to the injector and
      every entry is installed with `set` (each key gets a fresh queue, so the
      placement has no choice to make). */
  function Initialize(params: map<Key, RuleValue>): (st: State)
    ensures st.rules.Keys == params.Keys
    ensures forall k :: k in params ==> st.rules[k] == [SetterRule(k, params[k])]
    ensures CachedTruthy(st, INJECTOR) && st.cache[INJECTOR] == InjectorRef
    ensures forall k :: CachedTruthy(st, k) ==> k == INJECTOR
    ensures st.cache.Keys == {INJECTOR}
    ensures forall e, k :: CallbacksOf(st, e, k) == []
  {
    State(map k | k in params :: [SetterRule(k, params[k])], map[INJECTOR := InjectorRef], map[])
  }

  /** `q'` is `q` with `rule` put in at position `p`. */
  ghost predicate InsertedAt(q: seq<Rule>, rule: Rule, p: int, q': seq<Rule>) {
    0 <= p <= |q| && q' == q[..p] + [rule] + q[p..]
  }

  /** Putting a rule in adds exactly that rule to the queue's contents. */
  lemma InsertionAddsRule(q: seq<Rule>, rule: Rule, q': seq<Rule>)
    requires exists p :: InsertedAt(q, rule, p, q')
    ensures |q'| == |q| + 1
    ensures multiset(q') == multiset(q) + multiset{rule}
  {
    var p :| InsertedAt(q, rule, p, q');
    assert q == q[..p] + q[p..];
  }

  /** `insert_rule(rule)`: create the key's queue if needed and push the rule
      into it. The rule lands at some position; everything else keeps its order. */
  function InsertRule(st: State, rule: Rule, place: Placement): (st': State)
    requires ValidPlacement(place)
    ensures rule.key in st'.rules
    ensures exists p :: InsertedAt(Queue(st, rule.key), rule, p, st'.rules[rule.key])
    ensures multiset(st'.rules[rule.key]) == multiset(Queue(st, rule.key)) + multiset{rule}
    ensures forall k :: k != rule.key ==> Queue(st', k) == Queue(st, k) && (k in st'.rules <==> k in st.rules)
    ensures st'.cache == st.cache && st'.callbacks == st.callbacks
  {
    var q := Queue(st, rule.key);
    var p := place(q, rule);
    assert InsertedAt(q, rule, p, q[..p] + [rule] + q[p..]);
    InsertionAddsRule(q, rule, q[..p] + [rule] + q[p..]);
    st.(rules := st.rules[rule.key := q[..p] + [rule] + q[p..]])
  }

  /** `insert(key, identifier = nil, block, **options)`. */
  function Insert(st: State, key: Key, identifier: Value, value: RuleValue, options: map<Key, Value>,
                  place: Placement): (st': State)
    requires ValidPlacement(place)
    ensures key in st'.rules
    ensures exists p :: InsertedAt(Queue(st, key), NewRule(key, identifier, value, options), p, st'.rules[key])
    ensures forall k :: k != key ==> Queue(st', k) == Queue(st, k) && (k in st'.rules <==> k in st.rules)
    ensures st'.cache == st.cache && st'.callbacks == st.callbacks
  {
    InsertRule(st, NewRule(key, identifier, value, options), place)
  }

  /** `set(key, value)`: an insert with identifier `:setter` and `before: :all`. */
  function Set(st: State, key: Key, value: RuleValue, place: Placement): (st': State)
    requires ValidPlacement(place)
    ensures key in st'.rules
    ensures exists p :: InsertedAt(Queue(st, key), SetterRule(key, value), p, st'.rules[key])
    ensures forall k :: k != key ==> Queue(st', k) == Queue(st, k) && (k in st'.rules <==> k in st.rules)
    ensures st'.cache == st.cache && st'.callbacks == st.callbacks
  {
    assert SetterRule(key, value) == NewRule(key, SETTER, value, map["before" := ALL]);
    Insert(st, key, SETTER, value, map["before" := ALL], place)
  }

  /** The rules of `rules` that are for `key`, in order. */
  function ForKey(rules: seq<Rule>, key: Key): (r: seq<Rule>) {
    if rules == [] then [] else (if rules[0].key == key then [rules[0]] else []) + ForKey(rules[1..], key)
  }

  /** The keys that `rules` mention. */
  function KeysOf(rules: seq<Rule>): (keys: set<Key>) {
    set i | 0 <= i < |rules| :: rules[i].key
  }

  /** `insert_rules(rules)`: `insert_rule` for each rule, in order. Each
      key's queue gains exactly the rules given for it, a key gets a queue
      exactly when it had one or a rule names it, and other queues stay. */
  function InsertRules(st: State, rules: seq<Rule>, place: Placement): (st': State)
    requires ValidPlacement(place)
    ensures forall k :: multiset(Queue(st', k)) == multiset(Queue(st, k)) + multiset(ForKey(rules, k))
    ensures forall k :: ForKey(rules, k) == [] ==> Queue(st', k) == Queue(st, k)
    ensures st'.rules.Keys == st.rules.Keys + KeysOf(rules)
    ensures st'.cache == st.cache && st'.callbacks == st.callbacks
    decreases |rules|
  {
    if rules == [] then st
    else
      var mid := InsertRule(st, rules[0], place);
      var st' := InsertRules(mid, rules[1..], place);
      InsertRulesStep(st, mid, st', rules);
      st'
  }

  /** One step of `insert_rules`: the first rule goes in, then the rest. */
  lemma InsertRulesStep(st: State, mid: State, st': State, rules: seq<Rule>)
    requires rules != []
    requires rules[0].key in mid.rules
    requires multiset(mid.rules[rules[0].key]) == multiset(Queue(st, rules[0].key)) + multiset{rules[0]}
    requires forall k :: k != rules[0].key ==> Queue(mid, k) == Queue(st, k) && (k in mid.rules <==> k in st.rules)
    requires forall k :: multiset(Queue(st', k)) == multiset(Queue(mid, k)) + multiset(ForKey(rules[1..], k))
    requires forall k :: ForKey(rules[1..], k) == [] ==> Queue(st', k) == Queue(mid, k)
    requires st'.rules.Keys == mid.rules.Keys + KeysOf(rules[1..])
    ensures forall k :: multiset(Queue(st', k)) == multiset(Queue(st, k)) + multiset(ForKey(rules, k))
    ensures forall k :: ForKey(rules, k) == [] ==> Queue(st', k) == Queue(st, k)
    ensures st'.rules.Keys == st.rules.Keys + KeysOf(rules)
  {
    InsertRulesKeysStep(st.rules.Keys, mid.rules.Keys, st'.rules.Keys, rules);
    forall k
      ensures multiset(Queue(st', k)) == multiset(Queue(st, k)) + multiset(ForKey(rules, k))
      ensures ForKey(rules, k) == [] ==> Queue(st', k) == Queue(st, k)
    {
      InsertRulesStepAt(Queue(st, k), Queue(mid, k), Queue(st', k), rules, k);
    }
  }

  /** The same step for the set of keys with a queue. */
  lemma InsertRulesKeysStep(keys: set<Key>, mid: set<Key>, keys': set<Key>, rules: seq<Rule>)
    requires rules != []
    requires rules[0].key in mid
    requires forall k :: k != rules[0].key ==> (k in mid <==> k in keys)
    requires keys' == mid + KeysOf(rules[1..])
    ensures keys' == keys + KeysOf(rules)
  {
    KeysOfCons(rules);
    assert mid == keys + {rules[0].key};
  }

  /** The same step for one key's queue: `q` before, `m` after the first
      rule, `q'` after the rest. */
  lemma InsertRulesStepAt(q: seq<Rule>, m: seq<Rule>, q': seq<Rule>, rules: seq<Rule>, k: Key)
    requires rules != []
    requires rules[0].key == k ==> multiset(m) == multiset(q) + multiset{rules[0]}
    requires rules[0].key != k ==> m == q
    requires multiset(q') == multiset(m) + multiset(ForKey(rules[1..], k))
    requires ForKey(rules[1..], k) == [] ==> q' == m
    ensures multiset(q') == multiset(q) + multiset(ForKey(rules, k))
    ensures ForKey(rules, k) == [] ==> q' == q
  {
    var head := if rules[0].key == k then [rules[0]] else [];
    assert ForKey(rules, k) == head + ForKey(rules[1..], k);
    assert multiset(ForKey(rules, k)) == multiset(head) + multiset(ForKey(rules[1..], k));
  }

  lemma KeysOfCons(rules: seq<Rule>)
    requires rules != []
    ensures KeysOf(rules) == {rules[0].key} + KeysOf(rules[1..])
  {
    forall i | 1 <= i < |rules| ensures rules[i] == rules[1..][i - 1] {}
  }

  /** The queue with every rule whose identifier equals `id` deleted (`delete_if`). */
  function Survivors(q: seq<Rule>, id: Value): (s: seq<Rule>)
    ensures |s| <= |q|
    ensures forall k :: 0 <= k < |s| ==> s[k].identifier != id
    ensures (forall i :: 0 <= i < |q| ==> q[i].identifier != id) ==> s == q
  {
    if q == [] then []
    else if q[0].identifier == id then Survivors(q[1..], id)
    else [q[0]] + Survivors(q[1..], id)
  }

  /** `invalidate(key, identifier = :all)`: returns true (with the queue
      emptied, or with the matching rules deleted) when the key has a queue,
      nil otherwise. The key's queue itself stays, and the memo is untouched. */
  function Invalidate(st: State, key: Key, identifier: Value): (r: (Value, State))
    ensures key !in st.rules ==> r == (Nil, st)
    ensures key in st.rules ==> r.0 == True && key in r.1.rules
    ensures key in st.rules && identifier == ALL ==> r.1.rules[key] == []
    ensures key in st.rules && identifier != ALL ==> r.1.rules[key] == Survivors(st.rules[key], identifier)
    ensures r.1.rules.Keys == st.rules.Keys
    ensures forall k :: k != key ==> Queue(r.1, k) == Queue(st, k)
    ensures r.1.cache == st.cache && r.1.callbacks == st.callbacks
  {
    if key !in st.rules then (Nil, st)
    else
      var kept := if identifier == ALL then [] else Survivors(st.rules[key], identifier);
      (True, st.(rules := st.rules[key := kept]))
  }

  /** `add_callback(event, key, &block)`: a missing key defaults to the name
      of the block's first parameter (`nil.last` raises when it has none);
      the block is appended to that key's list. */
  function AddCallback(st: State, event: Event, key: Option<Key>, cb: Callable): (r: Result<State>)
    ensures key.None? && cb.params == [] ==> r == Err(NoParameterName)
    ensures key.Some? || cb.params != [] ==> r.Ok?
    ensures r.Ok? ==> r.value.rules == st.rules && r.value.cache == st.cache
    ensures r.Ok? ==>
      var k := if key.Some? then key.value else cb.params[0].name;
      && CallbacksOf(r.value, event, k) == CallbacksOf(st, event, k) + [cb]
      && forall e, k' :: (e, k') != (event, k) ==> CallbacksOf(r.value, e, k') == CallbacksOf(st, e, k')
  {
    if key.None? && cb.params == [] then Err(NoParameterName)
    else
      var k := if key.Some? then key.value else cb.params[0].name;
      var table := if event in st.callbacks then st.callbacks[event] else map[];
      Ok(st.(callbacks := st.callbacks[event := table[k := CallbacksOf(st, event, k) + [cb]]]))
  }

  /** `when_fetched(key = nil, &block)`. */
  function WhenFetched(st: State, key: Option<Key>, cb: Callable): (r: Result<State>)
    ensures key.None? && cb.params == [] ==> r == Err(NoParameterName)
    ensures key.Some? || cb.params != [] ==> r.Ok?
    ensures r.Ok? ==> r.value.rules == st.rules && r.value.cache == st.cache
    ensures r.Ok? ==>
      var k := if key.Some? then key.value else cb.params[0].name;
      && CallbacksOf(r.value, AfterFetch, k) == CallbacksOf(st, AfterFetch, k) + [cb]
      && forall e, k' :: (e, k') != (AfterFetch, k) ==> CallbacksOf(r.value, e, k') == CallbacksOf(st, e, k')
  {
    AddCallback(st, AfterFetch, key, cb)
  }

  /** `delete_if` keeps every rule whose identifier differs from `id`, and
      nothing that was not in the queue. */
  lemma {:induction false} SurvivorsKeepOthers(q: seq<Rule>, id: Value)
    ensures forall i :: 0 <= i < |q| && q[i].identifier != id ==> q[i] in Survivors(q, id)
    ensures forall x :: x in Survivors(q, id) ==> x in q
  {
    if q != [] {
      SurvivorsKeepOthers(q[1..], id);
      assert q == [q[0]] + q[1..];
      forall i | 0 < i < |q|
        ensures q[i] == q[1..][i - 1]
      {
      }
    }
  }

  /** When the queue places the new rule after every stored one, `insert`
      appends it. */
  lemma InsertPlacedLast(st: State, key: Key, identifier: Value, value: RuleValue, options: map<Key, Value>,
                         place: Placement)
    requires ValidPlacement(place)
    requires place(Queue(st, key), NewRule(key, identifier, value, options)) == |Queue(st, key)|
    ensures Insert(st, key, identifier, value, options, place).rules[key] ==
      Queue(st, key) + [NewRule(key, identifier, value, options)]
  {
    var q := Queue(st, key);
    assert q[..|q|] + [NewRule(key, identifier, value, options)] + q[|q|..] == q + [NewRule(key, identifier, value, options)];
  }

  /** `delete_if` removes every copy of a rule carrying `id` and keeps every
      copy of every other rule: the survivors are the queue's multiset with
      exactly the `id` rules taken out. */
  lemma {:induction false} SurvivorsMultiplicity(q: seq<Rule>, id: Value)
    ensures forall x :: multiset(Survivors(q, id))[x] == if x.identifier == id then 0 else multiset(q)[x]
  {
    if q != [] {
      SurvivorsMultiplicity(q[1..], id);
      assert q == [q[0]] + q[1..];
      assert multiset(q) == multiset{q[0]} + multiset(q[1..]);
      if q[0].identifier != id {
        assert multiset(Survivors(q, id)) == multiset{q[0]} + multiset(Survivors(q[1..], id));
      }
    }
  }

  /** `delete_if` looks at the first rule on its own. */
  lemma SurvivorsCons(x: Rule, rest: seq<Rule>, id: Value)
    ensures Survivors([x] + rest, id) == (if x.identifier == id then [] else [x]) + Survivors(rest, id)
  {
    var q := [x] + rest;
    assert q[0] == x && q[1..] == rest;
  }

  /** `delete_if` works rule by rule, so it distributes over concatenation. */
  lemma {:induction false} SurvivorsAppend(a: seq<Rule>, b: seq<Rule>, id: Value)
    ensures Survivors(a + b, id) == Survivors(a, id) + Survivors(b, id)
  {
    if a == [] {
      assert a + b == b;
    } else {
      var head := if a[0].identifier == id then [] else [a[0]];
      SurvivorsAppend(a[1..], b, id);
      SplitFirst(a, b);
      SurvivorsCons(a[0], a[1..] + b, id);
      SurvivorsCons(a[0], a[1..], id);
      ConcatAssociates(head, Survivors(a[1..], id), Survivors(b, id));
    }
  }

  lemma SplitFirst<T>(a: seq<T>, b: seq<T>)
    requires a != []
    ensures a == [a[0]] + a[1..]
    ensures a + b == [a[0]] + (a[1..] + b)
  {
  }

  lemma ConcatAssociates<T>(x: seq<T>, y: seq<T>, z: seq<T>)
    ensures x + (y + z) == (x + y) + z
  {
  }

  /** `invalidate` undoes `insert_rule`: deleting by the identifier of a rule
      just put into an existing queue that held no rule with that identifier
      gives back the state before the insert, wherever the rule was placed. */
  lemma InvalidateUndoesInsertRule(st: State, rule: Rule, place: Placement)
    requires ValidPlacement(place)
    requires rule.key in st.rules && rule.identifier != ALL
    requires forall i :: 0 <= i < |st.rules[rule.key]| ==> st.rules[rule.key][i].identifier != rule.identifier
    ensures Invalidate(InsertRule(st, rule, place), rule.key, rule.identifier) == (True, st)
  {
    var q := st.rules[rule.key];
    var p := place(q, rule);
    var mid := st.(rules := st.rules[rule.key := q[..p] + [rule] + q[p..]]);
    assert InsertRule(st, rule, place) == mid;
    DeletingInsertedRule(q, rule, p);
    assert Invalidate(mid, rule.key, rule.identifier).1.rules == st.rules[rule.key := q];
    assert st.rules[rule.key := q] == st.rules;
  }

  /** Deleting by a fresh identifier removes just the rule that carries it. */
  lemma DeletingInsertedRule(q: seq<Rule>, rule: Rule, p: int)
    requires 0 <= p <= |q|
    requires forall i :: 0 <= i < |q| ==> q[i].identifier != rule.identifier
    ensures Survivors(q[..p] + [rule] + q[p..], rule.identifier) == q
  {
    var id := rule.identifier;
    var a, b := q[..p], q[p..];
    assert forall i :: 0 <= i < |a| ==> a[i].identifier != id;
    assert forall i :: 0 <= i < |b| ==> b[i].identifier != id;
    calc {
      Survivors(a + [rule] + b, id);
      { SurvivorsAppend(a + [rule], b, id); }
      Survivors(a + [rule], id) + Survivors(b, id);
      { SurvivorsAppend(a, [rule], id); }
      Survivors(a, id) + Survivors([rule], id) + Survivors(b, id);
      { SurvivorsCons(rule, [], id); assert [rule] + [] == [rule]; }
      a + [] + b;
      { assert a + b == q; }
      q;
    }
  }

  /** `invalidate(key, :setter)` undoes `set` on a queue that held no setter. */
  lemma InvalidateUndoesSet(st: State, key: Key, value: RuleValue, place: Placement)
    requires ValidPlacement(place)
    requires key in st.rules
    requires forall i :: 0 <= i < |st.rules[key]| ==> st.rules[key][i].identifier != SETTER
    ensures Invalidate(Set(st, key, value, place), key, SETTER) == (True, st)
  {
    InvalidateUndoesInsertRule(st, SetterRule(key, value), place);
  }

  /** `insert_rules` over two lists is `insert_rules` over the first, then the second. */
  lemma {:induction false} InsertRulesAppend(st: State, a: seq<Rule>, b: seq<Rule>, place: Placement)
    requires ValidPlacement(place)
    ensures InsertRules(st, a + b, place) == InsertRules(InsertRules(st, a, place), b, place)
    decreases |a|
  {
    if a == [] {
      assert a + b == b;
    } else {
      assert (a + b)[0] == a[0];
      assert (a + b)[1..] == a[1..] + b;
      InsertRulesAppend(InsertRule(st, a[0], place), a[1..], b, place);
    }
  }

  /** `Initialize` is `set` applied to each entry: adding one more entry on top
      of the others gives the same state, whatever the placement. */
  lemma InitializeIsOneSetPerEntry(params: map<Key, RuleValue>, k: Key, place: Placement)
    requires k in params && ValidPlacement(place)
    ensures Initialize(params) == Set(Initialize(params - {k}), k, params[k], place)
  {
    var before := Initialize(params - {k});
    var rule := SetterRule(k, params[k]);
    assert Queue(before, k) == [];
    assert place([], rule) == 0;
    assert rule == NewRule(k, SETTER, params[k], map["before" := ALL]);
    assert Set(before, k, params[k], place) == InsertRule(before, rule, place);
    var q := Queue(before, k);
    assert q[..0] + [rule] + q[0..] == [rule];
    assert InsertRule(before, rule, place) == before.(rules := before.rules[k := [rule]]);
    assert before.rules[k := [rule]] == Initialize(params).rules;
  }
}

=== FILE: values.dfy ===
/** Ruby values that flow through the injector, the errors it raises and the
    small wrappers used to return them. */
module Values {

  /** Keys and parameter names are Ruby symbols; a symbol is modelled by its name. */
  type Key = string

  /** The Ruby objects the engine stores, returns and compares. Only `Nil` and
      `False` are falsy, which is what `||=` and `nil?` distinguish. */
  datatype Value =
    | Nil
    | False
    | True
    | Int(i: int)
    | Str(s: string)
    | Sym(name: string)
    | InjectorRef   // the injector object itself

  predicate Truthy(v: Value) {
    v != Nil && v != False
  }

  /** `:all`, the wildcard of `invalidate` and of the `before:`/`after:` hints. */
  const ALL: Value := Sym("all")

  /** `:setter`, the identifier of every rule added by `set`. */
  const SETTER: Value := Sym("setter")

  datatype Error =
    | RuleNotFound(key: Key, known: set<Key>)   // Injector::RuleNotFound
    | SplatParameter(name: Key)                 // ArgumentError for *rest / **keyrest
    | NoParameterName                           // NoMethodError of `nil.last` in add_callback
    | Raised(message: string)                   // anything raised by a producer or callback
    | OutOfFuel                                 // the model's bound on re-entrant resolution

  datatype Option<+T> = None | Some(value: T)

  datatype Result<+T> = Ok(value: T) | Err(error: Error)
}
